=== FILE: README.md ===
# blocks_patcher interception, modelled in Dafny

blocks_patcher is a DLL injected into a 32-bit DirectDraw game. It makes the
game run in a 640x480 window. On load it patches two entries of the host's
import table: `CreateWindowExA` and `DirectDrawCreate`. From there it hooks
methods of the DirectDraw object and of the surfaces that object creates. It
does this by overwriting their vtable slots with its own functions, and it
records each original entry point by name so the replacement can forward to
it.

This project models that core as pure functions over an explicit memory:

- `abi.dfy` (`Abi`): the 32-bit word, the Win32/DirectDraw constants used,
  and the declared method order of `IDirectDraw` and `IDirectDrawSurface`.
- `memory.dfy` (`Memory`): memory as a map from word addresses to cells
  (value and protection), `VirtualProtect` on one word and on a range, and
  `hook`, the read-swap-restore primitive. A failed `assert` and an access
  through an unmapped address are crash outcomes that carry the memory at
  the crash.
- `vtable.dfy` (`Vtable`): slot addressing, which is the table pointer plus a
  byte offset with 32-bit wrap-around. It also holds `InstallAll`, which
  hooks a list of (name, offset, replacement) entries on one instance and
  re-reads the table pointer before each slot, as main.cpp does.
- `caps_names.dfy` (`CapsNames`): `ddcaps_to_string` as a filter of the
  28-entry table followed by a `'|'` join, with `Split` as its inverse.
- `descriptors.dfy` (`Descriptors`): two argument rewrites. For a primary
  request, the surface descriptor forwarded by `CreateSurface_hook` is the
  caller's with `dwFlags` and `dwCaps` replaced. Any other request is
  replaced by a fixed 640x480 off-screen request. The `CreateWindowExA` arguments get size 640x480 and
  the `WS_POPUP` bit toggled.
- `interception.dfy` (`Interception`): the DLL's globals as one `Context`,
  each exported hook as a transition, and `Run` for a sequence of calls.
- `session.dfy` (`Session`): properties across calls. These cover who writes
  the registries, the two-surface limit, which words the registries hold
  after installation, the shared-vtable behaviour, and re-attaching.

Code the model cannot see is a parameter:

- DirectDraw's `DirectDrawCreate`;
- the original `CreateSurface` and `SetCooperativeLevel` entry points;
- user32's `CreateWindowExA`.

Each is an uninterpreted function in the `Foreign` record. A creator returns
its result code, the handle written through the caller's out-pointer, and
memory after it ran.

Some behaviours of main.cpp are easy to misread. The model follows the code
in each case:

- `CreateWindowExA_hook` XORs the style with `WS_POPUP` (main.cpp:127). The
  bit is toggled, not cleared, so a request without it gains it
  (`Descriptors.RewriteWindowTogglesPopup`).
- Every primary `CreateSurface` overwrites the registry entries
  (main.cpp:325-345). The originals survive a primary-then-back-buffer
  sequence only because the non-primary branch records nothing
  (`Session.SharedVtableKeepsTrueOriginals`). A second primary creation on a
  shared vtable records the replacements themselves
  (`Session.SecondPrimaryRecordsReplacements`).
- `Flip_hook` only forwards to the recorded original (main.cpp:269-275).
- The original `Flip` is recorded in `g_ddraw_hooks`, beside the DirectDraw
  methods, not in `g_surface_hooks` (main.cpp:345).

## Model

| member | source | states |
|---|---|---|
| Memory.VirtualProtect | main.cpp:77-79 | changing a word's protection succeeds exactly when the word is mapped, and the word then has the requested protection |
| Memory.ProtectThenRestore | main.cpp:77-90 | protecting a word and then restoring the reported old protection gives back the original memory |
| Memory.VirtualProtectRange | main.cpp:435-437 | protecting a range succeeds exactly when every word in it is mapped; words in the range get the new protection and all other words are unchanged |
| Memory.VirtualProtectRangeAgain | main.cpp:435-437 | protecting a range that already has the protection leaves memory unchanged |
| Memory.Hook | main.cpp:73-95 | `hook` crashes on an assertion exactly when the slot is unmapped; otherwise it returns the word the slot held, the slot holds the replacement under its old protection, and every other word is unchanged |
| Memory.HookUndo | main.cpp:73-95 | hooking again with the returned word restores memory exactly and returns the replacement: `hook` is its own inverse |
| Memory.HookSameWord | main.cpp:73-95 | hooking a slot with the word it already holds leaves memory unchanged |
| Memory.HookTwiceCapturesFirstReplacement | main.cpp:81-94 | a second hook on one slot returns the first replacement, not the true original |
| Memory.HookWithoutProtect | main.cpp:77-90 | with the asserts compiled out, `hook` succeeds exactly when the slot is mapped and has a write right, and otherwise faults on the slot |
| Memory.HookWithoutProtectAgreesWhenWritable | main.cpp:73-95 | on a writable slot, the build without asserts and the build with asserts behave the same |
| Memory.ReadOnlySlotBreaksReleaseHook | main.cpp:77-90 | on a read-only slot, the build without asserts crashes where `hook` succeeds |
| Vtable.SlotAddress | main.cpp:323 | the slot is the table address plus the offset, less 2^32 when the sum passes the top of the address space |
| Vtable.SlotOf | main.cpp:413 | the slot lies the method's offset past the table the instance's first word points to, modulo 2^32 |
| Vtable.SlotAddressInjective | main.cpp:412-425 | within one table, wrap-around included, two offsets give the same slot only when they are equal |
| Vtable.InstallAll | main.cpp:322-345 | installing on an unmapped instance faults on that address before anything is written; on a mapped instance every crash is the assertion in `hook`, and an unmapped first slot trips it before anything is written; a completed install returns one original per entry and maps exactly the words mapped before |
| Vtable.FirstInstallKeepsRestClean | main.cpp:322-329 | hooking one slot leaves the table pointer alone, so each later slot is the same address as before, differs from the first slot, and is still mapped |
| Vtable.InstallAllRecordsPriorWords | main.cpp:322-345 | on a clean layout every install succeeds, and entry i records the word its slot held before the whole sequence began |
| Vtable.InstallAllPatchesSlots | main.cpp:372-390 | on a clean layout each slot ends up holding its replacement under its old protection |
| Vtable.InstallAllLeavesOthers | main.cpp:372-390 | on a clean layout no word other than the plan's slots changes |
| CapsNames.MatchingNames | main.cpp:66-68 | the filter-and-project step lists at most one name per table entry, and lists none exactly when no entry's bit meets the mask |
| CapsNames.Join | main.cpp:69-70 | the joined text begins with the first part, and when there are more parts the separator follows it |
| CapsNames.CapsToString | main.cpp:64-71 | `ddcaps_to_string` is empty exactly when no table entry's bit meets the mask |
| CapsNames.MatchingNamesMembership | main.cpp:66-68 | a name passes the filter-and-project step exactly when some table entry has that name and a bit that meets the mask |
| CapsNames.MatchingNamesFromTable | main.cpp:66-68 | every listed name is the name of a table entry |
| CapsNames.SplitJoin | main.cpp:69-70 | splitting the joined text at the separator gives back the parts, provided no part contains the separator |
| CapsNames.JoinEmpty | main.cpp:69-70 | with no empty part, the joined text is empty exactly when there are no parts |
| CapsNames.JoinBorders | main.cpp:69-70 | the joined text of non-empty, separator-free parts neither starts nor ends with the separator |
| CapsNames.TableNamesWellFormed | main.cpp:20-48 | every name in the flag table is non-empty and free of the separator character |
| CapsNames.CapsToStringSpec | main.cpp:64-71 | `ddcaps_to_string` is empty exactly when no bit matches; otherwise splitting it at the separator gives exactly the matching names in table order, with no separator at either end |
| CapsNames.CapsToStringLists | main.cpp:64-71 | a non-empty name is one of the pieces of `ddcaps_to_string(caps)` cut at the separator exactly when the table pairs it with a bit that meets the mask |
| CapsNames.PrimarySurfaceLeftNeverListed | main.cpp:40 | `DDSCAPS_PRIMARYSURFACELEFT` has no bits, so it never matches any mask |
| Descriptors.PrimaryRequest | main.cpp:301-303 | a primary request is forwarded with flags `DDSD_CAPS` and caps `DDSCAPS_PRIMARYSURFACE`; putting the caller's two fields back gives the caller's descriptor |
| Descriptors.OffscreenRequest | main.cpp:353-358 | the request built for a non-primary surface declares caps, width and height valid, asks for a 640x480 off-screen plain surface in video memory, is not itself primary, and zeroes every other field |
| Descriptors.RewriteRequest | main.cpp:299-358 | the forwarded descriptor always declares its caps valid and is primary exactly when the request is; a primary request keeps every field except flags and caps, and any other request becomes a 640x480 off-screen one |
| Descriptors.RewriteRequestIsFixpoint | main.cpp:299-358 | the rewrite keeps a request primary or non-primary, and rewriting a rewritten request changes nothing |
| Descriptors.OffscreenIgnoresCaller | main.cpp:353-358 | any two non-primary requests are forwarded identically, as a size-0x6c, 640x480 off-screen video-memory descriptor with flags 7 and every other field zero |
| Descriptors.PrimaryKeepsOtherFields | main.cpp:301-303 | two primary requests are forwarded identically exactly when they agree on every field other than flags and caps |
| Descriptors.RewriteWindow | main.cpp:125-127 | the forwarded window arguments have width 640 and height 480, and putting back the caller's style and size gives the caller's arguments |
| Descriptors.RewriteWindowTogglesPopup | main.cpp:127 | the forwarded style has `WS_POPUP` exactly when the requested style lacks it |
| Descriptors.RewriteWindowKeepsOtherStyleBits | main.cpp:127 | every style bit other than `WS_POPUP` is forwarded as requested |
| Descriptors.RewriteWindowTwice | main.cpp:125-155 | rewriting twice restores the requested style and every argument except the forced size |
| Interception.Loaded | main.cpp:50-56 | when the DLL is loaded every handle global is null, no surface has been created, and every registry lookup reads a null function pointer |
| Interception.DirectDrawPlan | main.cpp:412-425 | the three `IDirectDraw` hooks use distinct offsets; each offset is a multiple of four and is the position, in the declared method order, of the method it is recorded under, and its slot receives that method's own replacement (`SetCooperativeLevel_hook` at 0x50, `SetDisplayMode_hook` at 0x54, `CreateSurface_hook` at 0x18) |
| Interception.SurfacePlan | main.cpp:322-345 | the five `IDirectDrawSurface` hooks use distinct offsets; each offset is a multiple of four and is the position, in the declared method order, of the method it is recorded under, and its slot receives that method's own replacement (`GetAttachedSurface_hook` at 0x30, `Blt_hook` at 0x14, `BltBatch_hook` at 0x18, `BltFast_hook` at 0x1c, `Flip_hook` at 0x2c) |
| Interception.DllMain | main.cpp:430-449 | a reason other than attach does nothing; attach completes exactly when the host region and both import slots are mapped, and then the region becomes read-write-execute, both import slots hold the replacements, and nothing else changes |
| Interception.CreateWindowExAHook | main.cpp:125-157 | `CreateWindowExA` receives every argument as requested except a 640x480 size and the style with `WS_POPUP` toggled; what it returns is returned and stored in `g_window`, and no other global changes |
| Interception.DirectDrawCreateHook | main.cpp:400-428 | the creator's result is returned unchanged, and `g_ddraw` is the created object; a created handle that is not mapped crashes on that address; the registry gains exactly the three names |
| Interception.SetCooperativeLevelHook | main.cpp:160-176 | the call crashes on a null pointer exactly when no original was recorded; otherwise it returns what the original answers for `DDSCL_NORMAL`, and the state is unchanged |
| Interception.SetDisplayModeHook | main.cpp:178-190 | `DD_OK` is returned and nothing is forwarded or changed |
| Interception.GetAttachedSurfaceHook | main.cpp:192-207 | `DD_OK` is returned with `g_secondary_surface` as the attached surface, and nothing changes |
| Interception.CreateSurfaceForwarded | main.cpp:299-368 | the original `CreateSurface` recorded in `g_ddraw_hooks` is called on the same object; it receives the caller's descriptor with flags `DDSD_CAPS` and caps `DDSCAPS_PRIMARYSURFACE` for a primary request, and the off-screen request otherwise |
| Interception.PrimaryCreated | main.cpp:315-349 | a surface handle that is not mapped faults on it, and an unmapped slot trips the assertion in `hook`; when the branch completes, the result code is passed through, the surface becomes `g_primary_surface`, and no global other than memory and the two registries changes |
| Interception.SecondaryCreated | main.cpp:370-396 | a surface handle that is not mapped faults on it, and an unmapped slot or back-buffer global trips the assertion in `hook`; when the branch completes, the result code is passed through, the surface becomes `g_secondary_surface` and is written to the host's back-buffer global, and no registry or other global changes |
| Interception.Step | main.cpp:97-449 | no exported entry point changes the replacement addresses, and only `CreateSurface` moves the surface counter, by exactly one |
| Interception.Run | main.cpp:296-297 | a session that completes keeps the replacement addresses and never lowers the surface counter |
| Interception.CreateSurfaceHook | main.cpp:277-398 | a third call trips the counter assertion; with no original recorded the call crashes on a null pointer; when the call completes, the counter has gone up by one, the result code is passed through and the mapped addresses are those the original left; a non-primary request leaves both registries alone, and a primary request adds exactly four surface names and `Flip` |
| Session.StepKeepsRegistries | main.cpp:325-425 | a call that is neither `DirectDrawCreate` nor a primary `CreateSurface` leaves both registries unchanged |
| Session.RunKeepsRegistries | main.cpp:325-425 | a session made only of such calls leaves both registries unchanged: the registries are written only at main.cpp:325-345 and 415-425, and the non-primary branch at 372-394 writes neither |
| Session.RunCountsSurfaceCreations | main.cpp:296-297 | a session that completes raises the counter by its number of `CreateSurface` calls, and a session with at least one such call leaves it at two or less |
| Session.AtMostTwoSurfaces | main.cpp:296-297 | starting from a freshly loaded DLL, a session with three or more `CreateSurface` calls crashes |
| Session.ReattachChangesNothing | main.cpp:430-449 | after a successful attach, attaching again leaves memory and globals unchanged |
| Session.ForwardingBeforeDirectDrawCrashes | main.cpp:174-175 | before `DirectDrawCreate` has run, `SetCooperativeLevel_hook` and `CreateSurface_hook` call through a null registry entry and crash |
| Session.DirectDrawCreateRecordsTrueOriginals | main.cpp:407-425 | on a clean layout the three slots hold the replacements, and the registry holds, under each method's name, the word its slot held before |
| Session.PrimaryCreatedRecords | main.cpp:322-345 | after the primary surface's installs the registries hold each slot's prior word under its method's name: four in `g_surface_hooks`, `Flip` in `g_ddraw_hooks` |
| Session.PrimaryCreatedPatches | main.cpp:322-344 | after the primary surface's installs all five slots hold the replacements |
| Session.PrimaryRecordsTrueOriginals | main.cpp:299-349 | on a clean layout a primary `CreateSurface` sets `g_primary_surface`, records every true original, and leaves every slot patched |
| Session.SecondaryCreatedPublishes | main.cpp:370-394 | after the non-primary installs the slots hold the replacements and the host's back-buffer global points to the new surface |
| Session.SecondaryPublishesBackBuffer | main.cpp:351-396 | on a clean layout a non-primary `CreateSurface` sets `g_secondary_surface`, publishes it at 0x004baf38, records nothing, and from then on `GetAttachedSurface` returns it |
| Session.SecondRoundReadsReplacements | main.cpp:372-390 | installing on a second object that shares the primary's vtable reads back the replacements, not the originals |
| Session.SharedVtableKeepsTrueOriginals | main.cpp:322-394 | primary then back buffer on one shared vtable: the registries still hold the originals captured first |
| Session.SecondPrimaryRecordsReplacements | main.cpp:322-345 | a second primary creation on the shared vtable records the `Blt` and `Flip` replacements as their own originals |
| Session.CooperativeLevelIgnored | main.cpp:167-175 | the requested cooperative level has no influence on the call |

"Clean layout" means three things. The instance and every slot of the plan
are mapped. No slot shares a byte with the instance's own first word. The
plan's offsets are distinct multiples of four, so no two slots share a
byte either. The lemmas about the back buffer also require its global to
share no byte with a slot.

## Left out

- Logging: `log`, `g_log`, every log call, and the `assert(g_log)` after
  opening `log.txt` in `DllMain`. This is file I/O. A log file that fails to
  open would stop the process, and the model does not include that stop.
- The reads the log calls make through caller pointers. `CreateSurface_hook`
  reads the descriptor and `GetAttachedSurface_hook` reads `dwCaps`.
  `CreateWindowExA_hook` formats `lpClassName` and `lpWindowName` as C
  strings (main.cpp:111-123 and 129-141), so a null window name or a class
  given as an atom is read through before the call is forwarded. A bad
  pointer there would fault before any hook work. The model receives these
  values instead, and `Interception.CreateWindowExAHook` never crashes.
- Address 0 is an ordinary address in the model and may be mapped. Windows
  never maps the page at 0, so a null handle always faults there. In the
  model a null handle returned by `DirectDrawCreate` or `CreateSurface`
  proceeds if 0 is mapped. A call through a null registry entry always
  crashes.
- `Blt_hook`, `BltBatch_hook`, `BltFast_hook` and `Flip_hook` (main.cpp:209-275)
  only log and forward through the registry. Their addresses appear as
  replacement words, but their forwarding is not modelled.
- The clipper calls in the primary branch (main.cpp:317-320). They create a
  clipper through `g_ddraw`, bind it to `g_window`, and attach it. They are
  foreign calls and change no global of the DLL. If `CreateClipper` fails,
  `clipper` stays null and `clipper->SetHWnd` (main.cpp:319) faults.
  `Interception.PrimaryCreated` never crashes at that point.
- Memory holds one independent 32-bit word per address. Byte-level overlap
  between words at nearby addresses is not modelled. The lemmas therefore
  assume a clean layout, in which no two words they touch share a byte.
  `VirtualProtectRange` likewise needs every address in the range to be a
  key.
- Protection is per word; Windows sets it per page. A mapped word may be read
  whatever its protection. The model only distinguishes protections for
  writes, in `Memory.HookWithoutProtect`.
- Out-pointers are returned values. The object a foreign creator writes
  through `lplpDD` or `lplpDDSurface` is its returned handle.
- Foreign code has no memory effects beyond the memory a creator returns.
  Calling conventions, threads and re-entrancy are not modelled.
- The over-read of the descriptor is not modelled. The primary branch copies
  a `DDSURFACEDESC2` (124 bytes) from the caller's pointer, but a
  `DDSURFACEDESC` caller provides 108 bytes (0x6c). `rest` simply holds the
  other 26 fields.
- `operator[]` on a missing registry name inserts a zero entry before the
  call through it crashes. The model crashes without the insertion, since
  the state after a crash is never used.
- Interception.CreateSurfaceHook: the counter is incremented even when its
  assertion fails. The model crashes without storing the increment, because
  nothing runs after the crash.
- The build without assertions is modelled only for `hook`
  (`Memory.HookWithoutProtect`). In that build `DllMain`'s region
  protection and the surface counter also disappear with their `assert`.
- The constant values of `DDSCAPS_*`, `DDSD_*`, `DDSCL_NORMAL`, `WS_POPUP`
  and the `PAGE_*` protections come from the platform headers `ddraw.h` and
  `winuser.h`. Those headers are not part of this model.

## Findings

| source | as written | input that shows it | evidently intended | confidence | as-written member | corrected member |
|---|---|---|---|---|---|---|
| main.cpp:77-90 | both `VirtualProtect` calls in `hook` are the argument of `assert`, so a build with `NDEBUG` removes them and writes the slot under its existing protection | an import-table slot whose page is read-only (`PAGE_READONLY`) | the slot is made writable before the write in every build, so that hooking a mapped slot always succeeds | medium, not executed | Memory.HookWithoutProtect (shown by Memory.ReadOnlySlotBreaksReleaseHook) | Memory.Hook |

=== FILE: abi.dfy ===
/** The binary facts the interception relies on: the width of a machine word in
    the 32-bit host process, the DirectDraw and Win32 constants the hooks use,
    and the declared method order of the two intercepted interfaces. The
    numeric values are those of the platform headers `ddraw.h` and
    `winuser.h`. */
module Abi {

  /** Number of distinct values of a 32-bit `std::uintptr_t`. */
  const WORD_MODULUS: int := 0x1_0000_0000

  /** A machine word: an address, a function pointer or an object handle. */
  type Word = x: int | 0 <= x < WORD_MODULUS

  /** A `DWORD` used as a bit mask, and an `HRESULT` as a bit pattern. */
  type Flags = bv32

  /** A signed 32-bit `int` argument. */
  type Int32 = x: int | -0x8000_0000 <= x < 0x8000_0000

  /** Size in bytes of one vtable entry on the 32-bit ABI. */
  const POINTER_SIZE: nat := 4

  // Win32 page protections; the ones with a write right are those a store
  // may go through
  const PAGE_READONLY: Flags := 0x02
  const PAGE_READWRITE: Flags := 0x04
  const PAGE_WRITECOPY: Flags := 0x08
  const PAGE_EXECUTE_READWRITE: Flags := 0x40
  const PAGE_EXECUTE_WRITECOPY: Flags := 0x80
  const WRITE_RIGHTS: Flags := PAGE_READWRITE | PAGE_WRITECOPY | PAGE_EXECUTE_READWRITE | PAGE_EXECUTE_WRITECOPY

  // Win32 window style and DLL entry reason
  const WS_POPUP: Flags := 0x8000_0000
  const DLL_PROCESS_ATTACH: Flags := 1

  // DirectDraw result code and cooperative level
  const DD_OK: Flags := 0
  const DDSCL_NORMAL: Flags := 0x08

  // DDSURFACEDESC flags naming the valid fields
  const DDSD_CAPS: Flags := 0x01
  const DDSD_HEIGHT: Flags := 0x02
  const DDSD_WIDTH: Flags := 0x04

  // DDSCAPS bits
  const DDSCAPS_ALPHA: Flags := 0x0000_0002
  const DDSCAPS_BACKBUFFER: Flags := 0x0000_0004
  const DDSCAPS_COMPLEX: Flags := 0x0000_0008
  const DDSCAPS_FLIP: Flags := 0x0000_0010
  const DDSCAPS_FRONTBUFFER: Flags := 0x0000_0020
  const DDSCAPS_OFFSCREENPLAIN: Flags := 0x0000_0040
  const DDSCAPS_OVERLAY: Flags := 0x0000_0080
  const DDSCAPS_PALETTE: Flags := 0x0000_0100
  const DDSCAPS_PRIMARYSURFACE: Flags := 0x0000_0200
  /** Obsolete flag, defined as zero by the header. */
  const DDSCAPS_PRIMARYSURFACELEFT: Flags := 0x0000_0000
  const DDSCAPS_SYSTEMMEMORY: Flags := 0x0000_0800
  const DDSCAPS_TEXTURE: Flags := 0x0000_1000
  const DDSCAPS_3DDEVICE: Flags := 0x0000_2000
  const DDSCAPS_VIDEOMEMORY: Flags := 0x0000_4000
  const DDSCAPS_VISIBLE: Flags := 0x0000_8000
  const DDSCAPS_WRITEONLY: Flags := 0x0001_0000
  const DDSCAPS_ZBUFFER: Flags := 0x0002_0000
  const DDSCAPS_OWNDC: Flags := 0x0004_0000
  const DDSCAPS_LIVEVIDEO: Flags := 0x0008_0000
  const DDSCAPS_HWCODEC: Flags := 0x0010_0000
  const DDSCAPS_MODEX: Flags := 0x0020_0000
  const DDSCAPS_MIPMAP: Flags := 0x0040_0000
  const DDSCAPS_ALLOCONLOAD: Flags := 0x0400_0000
  const DDSCAPS_VIDEOPORT: Flags := 0x0800_0000
  const DDSCAPS_LOCALVIDMEM: Flags := 0x1000_0000
  const DDSCAPS_NONLOCALVIDMEM: Flags := 0x2000_0000
  const DDSCAPS_STANDARDVGAMODE: Flags := 0x4000_0000
  const DDSCAPS_OPTIMIZED: Flags := 0x8000_0000

  /** Declared method order of `IDirectDraw`, up to the last method hooked.
      Entry k of the interface's vtable lives at byte offset k * POINTER_SIZE. */
  const DirectDrawMethods: seq<string> := [
    "QueryInterface", "AddRef", "Release", "Compact", "CreateClipper",
    "CreatePalette", "CreateSurface", "DuplicateSurface", "EnumDisplayModes",
    "EnumSurfaces", "FlipToGDISurface", "GetCaps", "GetDisplayMode",
    "GetFourCCCodes", "GetGDISurface", "GetMonitorFrequency", "GetScanLine",
    "GetVerticalBlankStatus", "Initialize", "RestoreDisplayMode",
    "SetCooperativeLevel", "SetDisplayMode"]

  /** Declared method order of `IDirectDrawSurface`, up to the last method hooked. */
  const SurfaceMethods: seq<string> := [
    "QueryInterface", "AddRef", "Release", "AddAttachedSurface",
    "AddOverlayDirtyRect", "Blt", "BltBatch", "BltFast",
    "DeleteAttachedSurface", "EnumAttachedSurfaces", "EnumOverlayZOrders",
    "Flip", "GetAttachedSurface"]
}

=== FILE: caps_names.dfy ===
/** `ddcaps_to_string`: the names of the capability bits present in a
    `DDSCAPS` mask, taken from a fixed table in table order and joined with
    `'|'`. */
module CapsNames {
  import opened Abi

  datatype CapName = CapName(bit: Flags, name: string)

  /** The flag-to-name table, in the order main.cpp lists it. */
  const CapsTable: seq<CapName> := [
    CapName(DDSCAPS_3DDEVICE, "DDSCAPS_3DDEVICE"),
    CapName(DDSCAPS_ALLOCONLOAD, "DDSCAPS_ALLOCONLOAD"),
    CapName(DDSCAPS_ALPHA, "DDSCAPS_ALPHA"),
    CapName(DDSCAPS_BACKBUFFER, "DDSCAPS_BACKBUFFER"),
    CapName(DDSCAPS_COMPLEX, "DDSCAPS_COMPLEX"),
    CapName(DDSCAPS_FLIP, "DDSCAPS_FLIP"),
    CapName(DDSCAPS_FRONTBUFFER, "DDSCAPS_FRONTBUFFER"),
    CapName(DDSCAPS_HWCODEC, "DDSCAPS_HWCODEC"),
    CapName(DDSCAPS_LIVEVIDEO, "DDSCAPS_LIVEVIDEO"),
    CapName(DDSCAPS_LOCALVIDMEM, "DDSCAPS_LOCALVIDMEM"),
    CapName(DDSCAPS_MIPMAP, "DDSCAPS_MIPMAP"),
    CapName(DDSCAPS_MODEX, "DDSCAPS_MODEX"),
    CapName(DDSCAPS_NONLOCALVIDMEM, "DDSCAPS_NONLOCALVIDMEM"),
    CapName(DDSCAPS_OFFSCREENPLAIN, "DDSCAPS_OFFSCREENPLAIN"),
    CapName(DDSCAPS_OVERLAY, "DDSCAPS_OVERLAY"),
    CapName(DDSCAPS_OPTIMIZED, "DDSCAPS_OPTIMIZED"),
    CapName(DDSCAPS_OWNDC, "DDSCAPS_OWNDC"),
    CapName(DDSCAPS_PALETTE, "DDSCAPS_PALETTE"),
    CapName(DDSCAPS_PRIMARYSURFACE, "DDSCAPS_PRIMARYSURFACE"),
    CapName(DDSCAPS_PRIMARYSURFACELEFT, "DDSCAPS_PRIMARYSURFACELEFT"),
    CapName(DDSCAPS_STANDARDVGAMODE, "DDSCAPS_STANDARDVGAMODE"),
    CapName(DDSCAPS_SYSTEMMEMORY, "DDSCAPS_SYSTEMMEMORY"),
    CapName(DDSCAPS_TEXTURE, "DDSCAPS_TEXTURE"),
    CapName(DDSCAPS_VIDEOMEMORY, "DDSCAPS_VIDEOMEMORY"),
    CapName(DDSCAPS_VIDEOPORT, "DDSCAPS_VIDEOPORT"),
    CapName(DDSCAPS_VISIBLE, "DDSCAPS_VISIBLE"),
    CapName(DDSCAPS_WRITEONLY, "DDSCAPS_WRITEONLY"),
    CapName(DDSCAPS_ZBUFFER, "DDSCAPS_ZBUFFER")]

  const SEPARATOR: char := '|'

  predicate Matches(e: CapName, caps: Flags)
  {
    e.bit & caps != 0
  }

  /** The filter-then-project step: names of the entries whose bit meets
      `caps`, in table order. */
  function MatchingNames(table: seq<CapName>, caps: Flags): (r: seq<string>)
    ensures |r| <= |table|
    ensures r == [] <==> forall i :: 0 <= i < |table| ==> !Matches(table[i], caps)
  {
    if table == [] then []
    else (if Matches(table[0], caps) then [table[0].name] else []) + MatchingNames(table[1..], caps)
  }

  /** `views::join_with(sep)`: the parts with one separator between
      neighbours, none before the first or after the last. */
  function Join(parts: seq<string>, sep: char): (r: string)
    ensures parts != [] ==> |parts[0]| <= |r| && r[..|parts[0]|] == parts[0]
    ensures |parts| > 1 ==> |parts[0]| < |r| && r[|parts[0]|] == sep
  {
    if parts == [] then []
    else if |parts| == 1 then parts[0]
    else parts[0] + [sep] + Join(parts[1..], sep)
  }

  /** Cuts a string at every separator; the inverse of `Join` on parts that
      do not contain the separator. */
  function Split(s: string, sep: char): (r: seq<string>)
    ensures |r| >= 1
  {
    if s == [] then [[]]
    else
      var tail := Split(s[1..], sep);
      if s[0] == sep then [[]] + tail else [[s[0]] + tail[0]] + tail[1..]
  }

  /** `ddcaps_to_string`: empty exactly when no table entry meets `caps`.
      The proof needs every table name to be non-empty, so it is stated
      after `TableNamesWellFormed`; see `CapsToStringSpec` for the rest. */
  function CapsToString(caps: Flags): (r: string)
    ensures r == [] <==> forall i :: 0 <= i < |CapsTable| ==> !Matches(CapsTable[i], caps)
  {
    var names := MatchingNames(CapsTable, caps);
    MatchingNamesWellFormed(caps);
    JoinEmpty(names, SEPARATOR);
    Join(names, SEPARATOR)
  }

  /** A name is listed exactly when some table entry carries that name and
      its bit meets the mask. */
  lemma {:induction false} MatchingNamesMembership(table: seq<CapName>, caps: Flags, n: string)
    ensures n in MatchingNames(table, caps)
        <==> exists i :: 0 <= i < |table| && table[i].name == n && Matches(table[i], caps)
  {
    if table != [] {
      MatchingNamesMembership(table[1..], caps, n);
      if n in MatchingNames(table[1..], caps) {
        var i :| 0 <= i < |table[1..]| && table[1..][i].name == n && Matches(table[1..][i], caps);
        assert table[i + 1] == table[1..][i];
      }
      if exists i :: 0 <= i < |table| && table[i].name == n && Matches(table[i], caps) {
        var i :| 0 <= i < |table| && table[i].name == n && Matches(table[i], caps);
        if i > 0 {
          assert table[1..][i - 1] == table[i];
        }
      }
    }
  }

  lemma {:induction false} SplitPrefix(a: string, rest: string, sep: char)
    requires sep !in a
    ensures Split(a + rest, sep) == [a + Split(rest, sep)[0]] + Split(rest, sep)[1..]
  {
    var r := Split(rest, sep);
    if a == [] {
      assert a + rest == rest;
      assert a + r[0] == r[0];
      assert r == [r[0]] + r[1..];
    } else {
      var s := a + rest;
      assert a[0] in a;
      assert s[0] == a[0] != sep;
      assert s[1..] == a[1..] + rest;
      SplitPrefix(a[1..], rest, sep);
      var t := Split(s[1..], sep);
      assert t == [a[1..] + r[0]] + r[1..];
      assert Split(s, sep) == [[a[0]] + t[0]] + t[1..];
      assert [a[0]] + (a[1..] + r[0]) == a + r[0];
    }
  }

  /** Splitting the joined parts gives the parts back when none contains the
      separator. */
  lemma {:induction false} SplitJoin(parts: seq<string>, sep: char)
    requires parts != []
    requires forall k :: 0 <= k < |parts| ==> sep !in parts[k]
    ensures Split(Join(parts, sep), sep) == parts
  {
    if |parts| == 1 {
      SplitPrefix(parts[0], [], sep);
      assert parts[0] + [] == parts[0];
      assert Split([], sep) == [[]];
      assert parts == [parts[0]];
    } else {
      var tail := Join(parts[1..], sep);
      SplitJoin(parts[1..], sep);
      assert ([sep] + tail)[1..] == tail;
      assert Split([sep] + tail, sep) == [[]] + parts[1..];
      SplitPrefix(parts[0], [sep] + tail, sep);
      assert Join(parts, sep) == parts[0] + ([sep] + tail);
      assert parts[0] + [] == parts[0];
      assert parts == [parts[0]] + parts[1..];
    }
  }

  /** The joined string is empty exactly when there is nothing to join,
      provided no part is empty. */
  lemma JoinEmpty(parts: seq<string>, sep: char)
    requires forall k :: 0 <= k < |parts| ==> parts[k] != []
    ensures Join(parts, sep) == [] <==> parts == []
  {
  }

  /** A non-empty join neither starts nor ends with the separator, provided
      no part is empty or contains it. */
  lemma {:induction false} JoinBorders(parts: seq<string>, sep: char)
    requires parts != []
    requires forall k :: 0 <= k < |parts| ==> parts[k] != [] && sep !in parts[k]
    ensures var s := Join(parts, sep); |s| > 0 && s[0] != sep && s[|s| - 1] != sep
  {
    if |parts| > 1 {
      JoinBorders(parts[1..], sep);
      var t := Join(parts[1..], sep);
      assert parts[0][0] in parts[0];
      assert Join(parts, sep) == parts[0] + [sep] + t;
    } else {
      assert parts[0][|parts[0]| - 1] in parts[0];
    }
  }

  /** Every listed name is some table entry's name. */
  lemma {:induction false} MatchingNamesFromTable(table: seq<CapName>, caps: Flags)
    ensures forall k :: 0 <= k < |MatchingNames(table, caps)| ==>
              exists i :: 0 <= i < |table| && table[i].name == MatchingNames(table, caps)[k]
  {
    var names := MatchingNames(table, caps);
    forall k | 0 <= k < |names|
      ensures exists i :: 0 <= i < |table| && table[i].name == names[k]
    {
      MatchingNamesMembership(table, caps, names[k]);
    }
  }

  predicate WellFormedName(n: string)
  {
    n != [] && forall k :: 0 <= k < |n| ==> n[k] != SEPARATOR
  }

  // The table's names are checked in seven groups of four, to keep each
  // proof obligation small.
  lemma NamesWellFormed0()
    ensures forall i :: 0 <= i < 4 ==> WellFormedName(CapsTable[i].name)
  {
  }

  lemma NamesWellFormed1()
    ensures forall i :: 4 <= i < 8 ==> WellFormedName(CapsTable[i].name)
  {
  }

  lemma NamesWellFormed2()
    ensures forall i :: 8 <= i < 12 ==> WellFormedName(CapsTable[i].name)
  {
  }

  lemma NamesWellFormed3()
    ensures forall i :: 12 <= i < 16 ==> WellFormedName(CapsTable[i].name)
  {
  }

  lemma NamesWellFormed4()
    ensures forall i :: 16 <= i < 20 ==> WellFormedName(CapsTable[i].name)
  {
  }

  lemma NamesWellFormed5()
    ensures forall i :: 20 <= i < 24 ==> WellFormedName(CapsTable[i].name)
  {
  }

  lemma NamesWellFormed6()
    ensures forall i :: 24 <= i < 28 ==> WellFormedName(CapsTable[i].name)
  {
  }

  /** Every name in the table is non-empty and free of the separator. */
  lemma TableNamesWellFormed()
    ensures forall i :: 0 <= i < |CapsTable| ==> WellFormedName(CapsTable[i].name)
  {
    NamesWellFormed0();
    NamesWellFormed1();
    NamesWellFormed2();
    NamesWellFormed3();
    NamesWellFormed4();
    NamesWellFormed5();
    NamesWellFormed6();
  }

  // Every name the filter lets through is non-empty and free of the
  // separator.
  lemma MatchingNamesWellFormed(caps: Flags)
    ensures forall k :: 0 <= k < |MatchingNames(CapsTable, caps)| ==>
              MatchingNames(CapsTable, caps)[k] != [] && SEPARATOR !in MatchingNames(CapsTable, caps)[k]
  {
    var names := MatchingNames(CapsTable, caps);
    TableNamesWellFormed();
    forall k | 0 <= k < |names|
      ensures names[k] != [] && SEPARATOR !in names[k]
    {
      MatchingNamesMembership(CapsTable, caps, names[k]);
      var i :| 0 <= i < |CapsTable| && CapsTable[i].name == names[k] && Matches(CapsTable[i], caps);
      assert WellFormedName(CapsTable[i].name);
    }
  }

  /** `ddcaps_to_string(caps)`: splitting the text at `'|'` recovers exactly
      the names of the entries whose bit meets `caps`, in table order; the
      text is empty exactly when no entry matches, and otherwise it neither
      starts nor ends with `'|'`. */
  lemma CapsToStringSpec(caps: Flags)
    ensures var s := CapsToString(caps);
            var names := MatchingNames(CapsTable, caps);
            && (s == [] <==> names == [])
            && (names != [] ==> Split(s, SEPARATOR) == names && s[0] != SEPARATOR && s[|s| - 1] != SEPARATOR)
  {
    var names := MatchingNames(CapsTable, caps);
    if names != [] {
      MatchingNamesWellFormed(caps);
      SplitJoin(names, SEPARATOR);
      JoinBorders(names, SEPARATOR);
    }
  }

  /** A non-empty name appears in `ddcaps_to_string(caps)`, cut at `'|'`,
      exactly when the table pairs it with a bit that meets `caps`. */
  lemma CapsToStringLists(caps: Flags, n: string)
    ensures n != [] ==>
              (n in Split(CapsToString(caps), SEPARATOR) <==>
               exists i :: 0 <= i < |CapsTable| && CapsTable[i].name == n && CapsTable[i].bit & caps != 0)
  {
    CapsToStringSpec(caps);
    MatchingNamesMembership(CapsTable, caps, n);
    if MatchingNames(CapsTable, caps) == [] {
      assert Split(CapsToString(caps), SEPARATOR) == [[]];
    }
  }

  /** The obsolete `DDSCAPS_PRIMARYSURFACELEFT` has no bits, so its name is
      never printed, whatever the mask. */
  lemma PrimarySurfaceLeftNeverListed(caps: Flags)
    ensures !Matches(CapsTable[19], caps) && CapsTable[19].name == "DDSCAPS_PRIMARYSURFACELEFT"
  {
  }
}

=== FILE: descriptors.dfy ===
/** The argument rewrites the interception applies before forwarding: the
    surface descriptor given to `CreateSurface` and the arguments of
    `CreateWindowExA`. */
module Descriptors {
  import opened Abi

  /** A `DDSURFACEDESC2`. The fields the interception reads or sets are
      named; `rest` holds the other 26 32-bit fields in declaration order
      (pitch, back-buffer count, pixel format, `dwCaps2`..`dwCaps4`, ...). */
  datatype SurfaceDesc = SurfaceDesc(
    size: Flags,
    flags: Flags,
    height: Flags,
    width: Flags,
    caps: Flags,
    rest: seq<Flags>)

  const OTHER_FIELDS: nat := 26

  function Zeros(n: nat): (r: seq<Flags>)
    ensures |r| == n && forall k :: 0 <= k < n ==> r[k] == 0
  {
    if n == 0 then [] else [0] + Zeros(n - 1)
  }

  /** The fixed geometry every window and back buffer is forced to. */
  const TARGET_WIDTH: nat := 640
  const TARGET_HEIGHT: nat := 480

  predicate RequestsPrimary(d: SurfaceDesc)
  {
    d.caps & DDSCAPS_PRIMARYSURFACE != 0
  }

  /** The descriptor forwarded for a primary-surface request: the caller's
      descriptor with only `dwFlags` and `ddsCaps.dwCaps` replaced. */
  function PrimaryRequest(d: SurfaceDesc): (r: SurfaceDesc)
    requires RequestsPrimary(d)
    ensures r.flags == DDSD_CAPS && r.caps == DDSCAPS_PRIMARYSURFACE
    ensures r.(flags := d.flags, caps := d.caps) == d
  {
    d.(flags := DDSD_CAPS, caps := DDSCAPS_PRIMARYSURFACE)
  }

  /** The descriptor forwarded for every other request, built from scratch:
      a 640x480 off-screen plain surface in video memory that declares its
      caps, width and height valid, all other fields zero. */
  function OffscreenRequest(): (r: SurfaceDesc)
    ensures !RequestsPrimary(r)
    ensures r.flags & DDSD_CAPS != 0 && r.flags & DDSD_WIDTH != 0 && r.flags & DDSD_HEIGHT != 0
    ensures r.caps & DDSCAPS_OFFSCREENPLAIN != 0 && r.caps & DDSCAPS_VIDEOMEMORY != 0
    ensures r.width == 640 && r.height == 480
    ensures |r.rest| == OTHER_FIELDS && forall k :: 0 <= k < |r.rest| ==> r.rest[k] == 0
  {
    SurfaceDesc(
      0x6c,
      DDSD_CAPS | DDSD_WIDTH | DDSD_HEIGHT,
      480,
      640,
      DDSCAPS_OFFSCREENPLAIN | DDSCAPS_VIDEOMEMORY,
      Zeros(OTHER_FIELDS))
  }

  /** The descriptor the `CreateSurface` interception forwards. It always
      declares its caps valid; a primary request keeps everything but flags
      and caps, and any other request becomes a 640x480 off-screen one. */
  function RewriteRequest(d: SurfaceDesc): (r: SurfaceDesc)
    ensures r.flags & DDSD_CAPS != 0
    ensures RequestsPrimary(r) <==> RequestsPrimary(d)
    ensures RequestsPrimary(d) ==> r.(flags := d.flags, caps := d.caps) == d
    ensures !RequestsPrimary(d) ==> r.width == 640 && r.height == 480 && r.caps & DDSCAPS_OFFSCREENPLAIN != 0
  {
    if RequestsPrimary(d) then PrimaryRequest(d) else OffscreenRequest()
  }

  /** The rewrite keeps a request's class (primary or not), so a rewritten
      request passed through the interception again comes out unchanged. */
  lemma RewriteRequestIsFixpoint(d: SurfaceDesc)
    ensures RequestsPrimary(RewriteRequest(d)) <==> RequestsPrimary(d)
    ensures RewriteRequest(RewriteRequest(d)) == RewriteRequest(d)
  {
  }

  /** A non-primary request is replaced wholesale: no field of it reaches
      the original, and what is forwarded declares exactly caps, width and
      height valid, for a 640x480 off-screen plain video-memory surface. */
  lemma OffscreenIgnoresCaller(d1: SurfaceDesc, d2: SurfaceDesc)
    requires !RequestsPrimary(d1) && !RequestsPrimary(d2)
    ensures RewriteRequest(d1) == RewriteRequest(d2)
    ensures var r := RewriteRequest(d1);
            && r.flags == 0x07 && r.caps == 0x4040 && !RequestsPrimary(r)
            && r.width == 640 && r.height == 480 && r.size == 0x6c
            && forall k :: 0 <= k < |r.rest| ==> r.rest[k] == 0
  {
  }

  /** Two primary requests that differ only in flags and caps are forwarded
      identically: the rewrite keeps every other field and nothing else. */
  lemma PrimaryKeepsOtherFields(d1: SurfaceDesc, d2: SurfaceDesc)
    requires RequestsPrimary(d1) && RequestsPrimary(d2)
    ensures RewriteRequest(d1) == RewriteRequest(d2) <==>
            d1.(flags := 0, caps := 0) == d2.(flags := 0, caps := 0)
  {
    if RewriteRequest(d1) == RewriteRequest(d2) {
      assert PrimaryRequest(d1).(flags := 0, caps := 0) == d1.(flags := 0, caps := 0);
    }
  }

  /** The arguments of `CreateWindowExA`; strings and handles are opaque
      words. */
  datatype WindowArgs = WindowArgs(
    exStyle: Flags,
    className: Word,
    windowName: Word,
    style: Flags,
    x: Int32,
    y: Int32,
    width: Int32,
    height: Int32,
    parent: Word,
    menu: Word,
    instance: Word,
    param: Word)

  /** The arguments the `CreateWindowExA` interception forwards: the size is
      forced to 640x480 and the `WS_POPUP` bit of the style is toggled. */
  function RewriteWindow(a: WindowArgs): (r: WindowArgs)
    ensures r.(style := a.style, width := a.width, height := a.height) == a
    ensures r.width == 640 && r.height == 480
  {
    a.(style := a.style ^ WS_POPUP, width := TARGET_WIDTH, height := TARGET_HEIGHT)
  }

  /** The style change is a toggle of `WS_POPUP`, not a clear: the result
      has the bit exactly when the request lacked it. */
  lemma RewriteWindowTogglesPopup(a: WindowArgs)
    ensures (RewriteWindow(a).style & WS_POPUP != 0) <==> (a.style & WS_POPUP == 0)
  {
  }

  /** Every style bit other than `WS_POPUP` is forwarded as requested. */
  lemma RewriteWindowKeepsOtherStyleBits(a: WindowArgs)
    ensures RewriteWindow(a).style & !WS_POPUP == a.style & !WS_POPUP
  {
  }

  /** Rewriting twice restores the requested style and every other
      argument; only the forced size remains. */
  lemma RewriteWindowTwice(a: WindowArgs)
    ensures RewriteWindow(RewriteWindow(a)) == a.(width := 640, height := 480)
  {
  }
}

=== FILE: interception.dfy ===
/** The patch DLL's interception state machine. Its globals form one
    immutable `Context`; each intercepted entry point is a pure transition
    from a context and the call's arguments to the reply and the next
    context, or to a crash of the host process. Code the model cannot see
    (DirectDraw, `CreateWindowExA`) is an uninterpreted `Foreign` parameter. */
module Interception {
  import opened Abi
  import opened Memory
  import opened Vtable
  import opened Descriptors

  /** Addresses of the replacement functions the DLL exports. */
  datatype Shims = Shims(
    createWindowExA: Word,
    directDrawCreate: Word,
    setCooperativeLevel: Word,
    setDisplayMode: Word,
    createSurface: Word,
    getAttachedSurface: Word,
    blt: Word,
    bltBatch: Word,
    bltFast: Word,
    flip: Word)

  /** The DLL's globals and the host's memory. */
  datatype Context = Context(
    machine: Machine,
    shims: Shims,
    ddraw: Word,                     // g_ddraw
    window: Word,                    // g_window
    primary: Word,                   // g_primary_surface
    secondary: Word,                 // g_secondary_surface
    ddrawHooks: map<string, Word>,   // g_ddraw_hooks
    surfaceHooks: map<string, Word>, // g_surface_hooks
    createCount: nat)                // CreateSurface_hook's static counter

  /** The globals as the DLL is loaded: null handles, no surface created
      yet, and every registry lookup reads a null function pointer. */
  function Loaded(m: Machine, shims: Shims): (r: Context)
    ensures r.machine == m && r.shims == shims && r.createCount == 0
    ensures r.ddraw == 0 && r.window == 0 && r.primary == 0 && r.secondary == 0
    ensures forall n :: Original(r.ddrawHooks, n) == 0 && Original(r.surfaceHooks, n) == 0
  {
    Context(m, shims, 0, 0, 0, 0, map[], map[], 0)
  }

  // Fixed addresses inside the host executable: the two import slots the
  // DLL patches on load, and the host's global holding its back buffer.
  const CREATE_WINDOW_IMPORT: Word := 0x0041_9120
  const DIRECTDRAW_CREATE_IMPORT: Word := 0x0041_9000
  const BACK_BUFFER_GLOBAL: Word := 0x004b_af38

  // The region of the host image `DllMain` makes writable and executable
  // before patching anything; it holds neither import slot.
  const HOST_REGION_START: Word := 0x004b_e000
  const HOST_REGION_SIZE: nat := 0x0002_f000

  predicate InHostRegion(a: Word)
  {
    HOST_REGION_START <= a < HOST_REGION_START + HOST_REGION_SIZE
  }

  /** What a foreign creator returns: its result code, the handle it wrote
      through the caller's out-pointer, and memory after it ran. */
  datatype Created = Created(hr: Flags, handle: Word, machine: Machine)

  /** The foreign code the hooks call. The first argument of the DirectDraw
      methods is the original entry point the call goes through. */
  datatype Foreign = Foreign(
    directDrawCreate: (Word, Word, Word, Machine) -> Created,
    createSurface: (Word, Word, SurfaceDesc, Word, Machine) -> Created,
    setCooperativeLevel: (Word, Word, Word, Flags) -> Flags,
    createWindowExA: WindowArgs -> Word)

  /** The replacement the DLL exports for the method of that name; zero for
      a method it does not replace. */
  function ShimFor(s: Shims, name: string): Word
  {
    match name
    case "SetCooperativeLevel" => s.setCooperativeLevel
    case "SetDisplayMode" => s.setDisplayMode
    case "CreateSurface" => s.createSurface
    case "GetAttachedSurface" => s.getAttachedSurface
    case "Blt" => s.blt
    case "BltBatch" => s.bltBatch
    case "BltFast" => s.bltFast
    case "Flip" => s.flip
    case _ => 0
  }

  /** Every hooked offset is a multiple of the pointer size and names, in
      the interface's declared method order, the method it is recorded
      under; that method's slot receives that method's replacement; no
      table is patched twice at one offset. */
  predicate FollowsLayout(plan: seq<Install>, methods: seq<string>, s: Shims)
  {
    && DistinctOffsets(plan)
    && forall i :: 0 <= i < |plan| ==>
         && plan[i].offset % POINTER_SIZE == 0 && plan[i].offset / POINTER_SIZE < |methods|
         && methods[plan[i].offset / POINTER_SIZE] == plan[i].name
         && plan[i].shim == ShimFor(s, plan[i].name)
  }

  /** The `IDirectDraw` methods hooked in `DirectDrawCreate_hook`, in install
      order. */
  function DirectDrawPlan(s: Shims): (r: seq<Install>)
    ensures |r| == 3 && FollowsLayout(r, DirectDrawMethods, s)
  {
    [ Install("SetCooperativeLevel", 0x50, s.setCooperativeLevel),
      Install("SetDisplayMode", 0x54, s.setDisplayMode),
      Install("CreateSurface", 0x18, s.createSurface) ]
  }

  /** The `IDirectDrawSurface` methods hooked on every created surface, in
      install order. */
  function SurfacePlan(s: Shims): (r: seq<Install>)
    ensures |r| == 5 && FollowsLayout(r, SurfaceMethods, s)
  {
    [ Install("GetAttachedSurface", 0x30, s.getAttachedSurface),
      Install("Blt", 0x14, s.blt),
      Install("BltBatch", 0x18, s.bltBatch),
      Install("BltFast", 0x1c, s.bltFast),
      Install("Flip", 0x2c, s.flip) ]
  }

  /** `registry[name]` as the forwarding shims read it: a name never
      recorded reads as a null function pointer. */
  function Original(registry: map<string, Word>, name: string): Word
  {
    if name in registry then registry[name] else 0
  }

  datatype Answer =
    | Accepted                            // DllMain's TRUE
    | Status(hr: Flags)                   // an HRESULT
    | Window(hwnd: Word)                  // an HWND
    | Attached(hr: Flags, surface: Word)  // an HRESULT and an out-pointer's value

  datatype Reply = Reply(ctx: Context, answer: Answer)

  /** `DllMain` on process attach: open the host's region at
      `HOST_REGION_START` for writing and execution, then patch the host's
      import slots for `CreateWindowExA` and `DirectDrawCreate`. A failed
      `VirtualProtect` trips an `assert`. Other reasons do nothing. */
  function DllMain(ctx: Context, reason: Flags): (r: Outcome<Reply>)
    ensures reason != DLL_PROCESS_ATTACH ==> r == Done(Reply(ctx, Accepted))
    ensures reason == DLL_PROCESS_ATTACH ==>
              (r.Done? <==> && (forall a: Word :: InHostRegion(a) ==> a in ctx.machine)
                            && CREATE_WINDOW_IMPORT in ctx.machine && DIRECTDRAW_CREATE_IMPORT in ctx.machine)
    ensures r.Crashed? ==> r.fault == AssertionFailed
    ensures r.Done? ==> r.value.answer == Accepted && r.value.ctx == ctx.(machine := r.value.ctx.machine)
    ensures reason == DLL_PROCESS_ATTACH && r.Done? ==>
              var m := r.value.ctx.machine;
              && CREATE_WINDOW_IMPORT in ctx.machine && DIRECTDRAW_CREATE_IMPORT in ctx.machine
              && m.Keys == ctx.machine.Keys
              && m[CREATE_WINDOW_IMPORT] == Cell(ctx.shims.createWindowExA, ctx.machine[CREATE_WINDOW_IMPORT].prot)
              && m[DIRECTDRAW_CREATE_IMPORT] == Cell(ctx.shims.directDrawCreate, ctx.machine[DIRECTDRAW_CREATE_IMPORT].prot)
              && forall a :: a in ctx.machine && a != CREATE_WINDOW_IMPORT && a != DIRECTDRAW_CREATE_IMPORT ==>
                   m[a] == (if InHostRegion(a) then ctx.machine[a].(prot := PAGE_EXECUTE_READWRITE) else ctx.machine[a])
  {
    if reason != DLL_PROCESS_ATTACH then Done(Reply(ctx, Accepted))
    else
      match VirtualProtectRange(ctx.machine, HOST_REGION_START, HOST_REGION_SIZE, PAGE_EXECUTE_READWRITE)
      case None => Crashed(AssertionFailed, ctx.machine)
      case Some(unlocked) =>
        match Hook(unlocked, CREATE_WINDOW_IMPORT, ctx.shims.createWindowExA)
        case Crashed(f, at) => Crashed(f, at)
        case Done(w) =>
          match Hook(w.machine, DIRECTDRAW_CREATE_IMPORT, ctx.shims.directDrawCreate)
          case Crashed(f, at) => Crashed(f, at)
          case Done(d) => Done(Reply(ctx.(machine := d.machine), Accepted))
  }

  /** `CreateWindowExA_hook`: forward the rewritten arguments, remember the
      new window in `g_window` and hand it back. The second clause says what
      is forwarded without naming the rewrite: every argument as requested,
      except a 640x480 size and the style with `WS_POPUP` toggled. */
  function CreateWindowExAHook(ctx: Context, args: WindowArgs, world: Foreign): (r: Outcome<Reply>)
    ensures var h := world.createWindowExA(RewriteWindow(args));
            r == Done(Reply(ctx.(window := h), Window(h)))
    ensures forall a: WindowArgs ::
              && a.width == 640 && a.height == 480 && a.style == args.style ^ WS_POPUP
              && a.(style := args.style, width := args.width, height := args.height) == args
              ==> r == Done(Reply(ctx.(window := world.createWindowExA(a)), Window(world.createWindowExA(a))))
  {
    var hwnd := world.createWindowExA(RewriteWindow(args));
    Done(Reply(ctx.(window := hwnd), Window(hwnd)))
  }

  /** `DirectDrawCreate_hook`: create the DirectDraw object through the real
      `DirectDrawCreate`, keep it in `g_ddraw`, hook three of its methods and
      record their originals by name. The creator's result is returned
      unchanged, success or not. */
  function DirectDrawCreateHook(ctx: Context, guid: Word, out: Word, outer: Word, world: Foreign): (r: Outcome<Reply>)
    ensures var created := world.directDrawCreate(guid, out, outer, ctx.machine);
            created.handle !in created.machine ==> r == Crashed(AccessViolation(created.handle), created.machine)
    ensures r.Done? ==>
              var created := world.directDrawCreate(guid, out, outer, ctx.machine);
              var c := r.value.ctx;
              && r.value.answer == Status(created.hr)
              && c == ctx.(machine := c.machine, ddraw := created.handle, ddrawHooks := c.ddrawHooks)
              && c.ddrawHooks.Keys == ctx.ddrawHooks.Keys + {"SetCooperativeLevel", "SetDisplayMode", "CreateSurface"}
  {
    var created := world.directDrawCreate(guid, out, outer, ctx.machine);
    match InstallAll(created.machine, created.handle, DirectDrawPlan(ctx.shims))
    case Crashed(f, at) => Crashed(f, at)
    case Done(installed) =>
      var o := installed.originals;
      var registry := ctx.ddrawHooks["SetCooperativeLevel" := o[0]]["SetDisplayMode" := o[1]]["CreateSurface" := o[2]];
      Done(Reply(ctx.(machine := installed.machine, ddraw := created.handle, ddrawHooks := registry),
                 Status(created.hr)))
  }

  /** `SetCooperativeLevel_hook`: forward to the recorded original with the
      level forced to `DDSCL_NORMAL` and return its result. */
  function SetCooperativeLevelHook(ctx: Context, that: Word, hwnd: Word, level: Flags, world: Foreign): (r: Outcome<Reply>)
    ensures Original(ctx.ddrawHooks, "SetCooperativeLevel") == 0 <==> r.Crashed?
    ensures r.Crashed? ==> r == Crashed(AccessViolation(0), ctx.machine)
    ensures r.Done? ==>
              && r.value.ctx == ctx
              && r.value.answer == Status(world.setCooperativeLevel(ctx.ddrawHooks["SetCooperativeLevel"], that, hwnd, DDSCL_NORMAL))
  {
    var original := Original(ctx.ddrawHooks, "SetCooperativeLevel");
    if original == 0 then Crashed(AccessViolation(0), ctx.machine)
    else Done(Reply(ctx, Status(world.setCooperativeLevel(original, that, hwnd, DDSCL_NORMAL))))
  }

  /** `SetDisplayMode_hook`: report success without forwarding; no mode
      change happens. */
  function SetDisplayModeHook(ctx: Context, that: Word, width: Flags, height: Flags, bpp: Flags): (r: Outcome<Reply>)
    ensures r.Done? && r.value.ctx == ctx && r.value.answer == Status(DD_OK)
  {
    Done(Reply(ctx, Status(DD_OK)))
  }

  /** `GetAttachedSurface_hook`: answer with the managed back buffer without
      forwarding. */
  function GetAttachedSurfaceHook(ctx: Context, that: Word, caps: Flags): (r: Outcome<Reply>)
    ensures r.Done? && r.value.ctx == ctx
    ensures r.value.answer.Attached? && r.value.answer.hr == DD_OK && r.value.answer.surface == ctx.secondary
  {
    Done(Reply(ctx, Attached(DD_OK, ctx.secondary)))
  }

  /** The call `CreateSurface_hook` forwards, and what the recorded
      original makes of it. A primary request reaches the original with only
      flags and caps replaced; any other request is replaced by the
      off-screen one. */
  function CreateSurfaceForwarded(ctx: Context, that: Word, desc: SurfaceDesc, outer: Word, world: Foreign): (r: Created)
    ensures RequestsPrimary(desc) ==>
              r == world.createSurface(Original(ctx.ddrawHooks, "CreateSurface"), that,
                                       desc.(flags := DDSD_CAPS, caps := DDSCAPS_PRIMARYSURFACE), outer, ctx.machine)
    ensures !RequestsPrimary(desc) ==>
              r == world.createSurface(Original(ctx.ddrawHooks, "CreateSurface"), that, OffscreenRequest(), outer, ctx.machine)
  {
    world.createSurface(Original(ctx.ddrawHooks, "CreateSurface"), that, RewriteRequest(desc), outer, ctx.machine)
  }

  /** `CreateSurface_hook`. At most two calls are allowed. A primary request
      is forwarded with flags and caps replaced, becomes `g_primary_surface`,
      is hooked, and its originals are recorded. Any other request is
      replaced by a 640x480 off-screen request, becomes
      `g_secondary_surface`, is hooked without recording anything, and is
      written into the host's back-buffer global. */
  function CreateSurfaceHook(ctx: Context, that: Word, desc: SurfaceDesc, outer: Word, world: Foreign): (r: Outcome<Reply>)
    ensures ctx.createCount >= 2 ==> r == Crashed(AssertionFailed, ctx.machine)
    ensures ctx.createCount < 2 && Original(ctx.ddrawHooks, "CreateSurface") == 0 ==>
              r == Crashed(AccessViolation(0), ctx.machine)
    ensures r.Done? ==>
              var created := CreateSurfaceForwarded(ctx, that, desc, outer, world);
              var c := r.value.ctx;
              && ctx.createCount < 2 && c.createCount == ctx.createCount + 1
              && r.value.answer == Status(created.hr)
              && c.shims == ctx.shims && c.ddraw == ctx.ddraw && c.window == ctx.window
              && c.machine.Keys == created.machine.Keys
    ensures r.Done? && !RequestsPrimary(desc) ==>
              var c := r.value.ctx;
              && c.secondary == CreateSurfaceForwarded(ctx, that, desc, outer, world).handle
              && c.primary == ctx.primary
              && c.ddrawHooks == ctx.ddrawHooks && c.surfaceHooks == ctx.surfaceHooks
    ensures r.Done? && RequestsPrimary(desc) ==>
              var c := r.value.ctx;
              && c.primary == CreateSurfaceForwarded(ctx, that, desc, outer, world).handle
              && c.secondary == ctx.secondary
              && c.surfaceHooks.Keys == ctx.surfaceHooks.Keys + {"GetAttachedSurface", "Blt", "BltBatch", "BltFast"}
              && c.ddrawHooks.Keys == ctx.ddrawHooks.Keys + {"Flip"}
              && forall n :: n in ctx.ddrawHooks && n != "Flip" ==> c.ddrawHooks[n] == ctx.ddrawHooks[n]
  {
    if ctx.createCount >= 2 then Crashed(AssertionFailed, ctx.machine)
    else
      var counted := ctx.(createCount := ctx.createCount + 1);
      if Original(ctx.ddrawHooks, "CreateSurface") == 0 then Crashed(AccessViolation(0), ctx.machine)
      else
        var created := CreateSurfaceForwarded(ctx, that, desc, outer, world);
        if RequestsPrimary(desc) then PrimaryCreated(counted, created)
        else SecondaryCreated(counted, created)
  }

  /** The primary branch after the forwarded call returned: the new
      surface becomes `g_primary_surface` and only the two registries change
      besides memory. A surface handle that is not mapped faults on it. */
  function PrimaryCreated(ctx: Context, created: Created): (r: Outcome<Reply>)
    ensures created.handle !in created.machine ==> r == Crashed(AccessViolation(created.handle), created.machine)
    ensures created.handle in created.machine && r.Crashed? ==> r.fault == AssertionFailed
    ensures created.handle in created.machine && SlotOf(created.machine, created.handle, 0x30) !in created.machine ==>
              r == Crashed(AssertionFailed, created.machine)
    ensures r.Done? ==>
              var c := r.value.ctx;
              && r.value.answer == Status(created.hr)
              && c == ctx.(machine := c.machine, primary := created.handle,
                           surfaceHooks := c.surfaceHooks, ddrawHooks := c.ddrawHooks)
              && c.machine.Keys == created.machine.Keys
  {
    var surface := created.handle;
    match InstallAll(created.machine, surface, SurfacePlan(ctx.shims))
    case Crashed(f, at) => Crashed(f, at)
    case Done(installed) =>
      var o := installed.originals;
      var surfaceHooks := ctx.surfaceHooks["GetAttachedSurface" := o[0]]["Blt" := o[1]]["BltBatch" := o[2]]["BltFast" := o[3]];
      var ddrawHooks := ctx.ddrawHooks["Flip" := o[4]];
      Done(Reply(ctx.(machine := installed.machine, primary := surface,
                      surfaceHooks := surfaceHooks, ddrawHooks := ddrawHooks),
                 Status(created.hr)))
  }

  /** The non-primary branch after the forwarded call returned: the new
      surface becomes `g_secondary_surface` and is written into the host's
      back-buffer global; no registry changes. A surface handle that is not
      mapped faults on it. */
  function SecondaryCreated(ctx: Context, created: Created): (r: Outcome<Reply>)
    ensures created.handle !in created.machine ==> r == Crashed(AccessViolation(created.handle), created.machine)
    ensures created.handle in created.machine && r.Crashed? ==> r.fault == AssertionFailed
    ensures created.handle in created.machine && SlotOf(created.machine, created.handle, 0x30) !in created.machine ==>
              r == Crashed(AssertionFailed, created.machine)
    ensures created.handle in created.machine && BACK_BUFFER_GLOBAL !in created.machine ==>
              r.Crashed? && r.fault == AssertionFailed
    ensures r.Done? ==>
              var c := r.value.ctx;
              && r.value.answer == Status(created.hr)
              && c == ctx.(machine := c.machine, secondary := created.handle)
              && c.machine.Keys == created.machine.Keys
              && BACK_BUFFER_GLOBAL in c.machine && c.machine[BACK_BUFFER_GLOBAL].value == created.handle
  {
    var surface := created.handle;
    match InstallAll(created.machine, surface, SurfacePlan(ctx.shims))
    case Crashed(f, at) => Crashed(f, at)
    case Done(installed) =>
      match Hook(installed.machine, BACK_BUFFER_GLOBAL, surface)
      case Crashed(f, at) => Crashed(f, at)
      case Done(published) =>
        Done(Reply(ctx.(machine := published.machine, secondary := surface), Status(created.hr)))
  }

  /** One call into the DLL. */
  datatype Call =
    | Attach(reason: Flags)
    | CreateWindow(args: WindowArgs)
    | CreateDirectDraw(guid: Word, out: Word, outer: Word)
    | SetCooperativeLevel(that: Word, hwnd: Word, level: Flags)
    | SetDisplayMode(that: Word, width: Flags, height: Flags, bpp: Flags)
    | GetAttachedSurface(that: Word, caps: Flags)
    | CreateSurface(that: Word, desc: SurfaceDesc, outer: Word)

  /** One call: no call changes the shim addresses, and only
      `CreateSurface` moves the surface counter, by one. */
  function Step(ctx: Context, call: Call, world: Foreign): (r: Outcome<Reply>)
    ensures r.Done? ==> r.value.ctx.shims == ctx.shims
    ensures r.Done? ==> r.value.ctx.createCount == ctx.createCount + (if call.CreateSurface? then 1 else 0)
  {
    match call
    case Attach(reason) => DllMain(ctx, reason)
    case CreateWindow(args) => CreateWindowExAHook(ctx, args, world)
    case CreateDirectDraw(guid, out, outer) => DirectDrawCreateHook(ctx, guid, out, outer, world)
    case SetCooperativeLevel(that, hwnd, level) => SetCooperativeLevelHook(ctx, that, hwnd, level, world)
    case SetDisplayMode(that, w, h, bpp) => SetDisplayModeHook(ctx, that, w, h, bpp)
    case GetAttachedSurface(that, caps) => GetAttachedSurfaceHook(ctx, that, caps)
    case CreateSurface(that, desc, outer) => CreateSurfaceHook(ctx, that, desc, outer, world)
  }

  /** A session: the calls in order, stopping at the first crash. */
  function Run(ctx: Context, calls: seq<Call>, world: Foreign): (r: Outcome<Context>)
    ensures r.Done? ==> r.value.shims == ctx.shims && r.value.createCount >= ctx.createCount
    ensures calls == [] ==> r == Done(ctx)
    decreases |calls|
  {
    if calls == [] then Done(ctx)
    else
      match Step(ctx, calls[0], world)
      case Crashed(f, at) => Crashed(f, at)
      case Done(reply) => Run(reply.ctx, calls[1..], world)
  }
}

=== FILE: memory.dfy ===
/** Process memory as seen by the slot-patching primitive `hook`: a map from
    word addresses to cells holding a value and the protection of that word.
    A word outside the map is not mapped: touching it faults, and changing
    its protection fails. */
module Memory {
  import opened Abi

  datatype Cell = Cell(value: Word, prot: Flags)

  type Machine = map<Word, Cell>

  datatype Option<+T> = None | Some(value: T)

  /** Why the host process stops: a failed `assert`, or an access to an
      unmapped address (a null or dangling pointer, or a call through one). */
  datatype Fault = AssertionFailed | AccessViolation(addr: Word)

  /** Every step either finishes or crashes the process; a crash records the
      memory as it was when the process stopped. */
  datatype Outcome<+T> = Done(value: T) | Crashed(fault: Fault, at: Machine)

  datatype Protected = Protected(machine: Machine, oldProt: Flags)

  /** `VirtualProtect` on the one word at `addr`: reports the protection in
      force before the call, and fails when the word is not mapped. */
  function VirtualProtect(m: Machine, addr: Word, prot: Flags): (r: Option<Protected>)
    ensures r.Some? <==> addr in m
    ensures r.Some? ==> addr in r.value.machine && r.value.machine[addr].prot == prot
  {
    if addr in m then Some(Protected(m[addr := m[addr].(prot := prot)], m[addr].prot))
    else None
  }

  /** Changing a word's protection and then changing it back to the reported
      old protection leaves memory exactly as it was. */
  lemma ProtectThenRestore(m: Machine, addr: Word, prot: Flags)
    requires addr in m
    ensures var p := VirtualProtect(m, addr, prot).value;
            VirtualProtect(p.machine, addr, p.oldProt) == Some(Protected(m, prot))
  {
    var p := VirtualProtect(m, addr, prot).value;
    assert p.machine[addr := p.machine[addr].(prot := p.oldProt)] == m;
  }

  /** `VirtualProtect` over the `size` bytes from `start`: fails unless every
      word of the range is mapped, and otherwise gives each of them the new
      protection. */
  function VirtualProtectRange(m: Machine, start: Word, size: nat, prot: Flags): (r: Option<Machine>)
    requires start + size <= WORD_MODULUS
    ensures r.Some? <==> forall a: Word :: start <= a < start + size ==> a in m
    ensures r.Some? ==> && r.value.Keys == m.Keys
                        && forall a :: a in m ==>
                             r.value[a] == (if start <= a < start + size then m[a].(prot := prot) else m[a])
  {
    if forall a: Word | start <= a < start + size :: a in m then
      Some(map a | a in m :: if start <= a < start + size then m[a].(prot := prot) else m[a])
    else None
  }

  /** Protecting a range that already has the protection changes nothing. */
  lemma VirtualProtectRangeAgain(m: Machine, start: Word, size: nat, prot: Flags)
    requires start + size <= WORD_MODULUS
    requires forall a: Word :: start <= a < start + size ==> a in m && m[a].prot == prot
    ensures VirtualProtectRange(m, start, size, prot) == Some(m)
  {
    assert VirtualProtectRange(m, start, size, prot).value == m;
  }

  datatype Swapped = Swapped(machine: Machine, original: Word)

  /** `hook(iat_addr, hook_addr)`: make the slot writable, read the word it
      holds, store the replacement, restore the slot's protection, and return
      the word that was there. Either protection change failing trips an
      `assert` and stops the process. */
  function Hook(m: Machine, slot: Word, replacement: Word): (r: Outcome<Swapped>)
    ensures r.Crashed? <==> slot !in m
    ensures r.Crashed? ==> r.fault == AssertionFailed && r.at == m
    ensures r.Done? ==> && r.value.original == m[slot].value
                        && r.value.machine.Keys == m.Keys
                        && r.value.machine[slot] == Cell(replacement, m[slot].prot)
                        && forall a :: a in m && a != slot ==> r.value.machine[a] == m[a]
  {
    match VirtualProtect(m, slot, PAGE_READWRITE)
    case None => Crashed(AssertionFailed, m)
    case Some(writable) =>
      var original := writable.machine[slot].value;
      var written := writable.machine[slot := writable.machine[slot].(value := replacement)];
      match VirtualProtect(written, slot, writable.oldProt)
      case None => Crashed(AssertionFailed, written)
      case Some(restored) => Done(Swapped(restored.machine, original))
  }

  /** Hooking a slot again with the word `Hook` returned undoes the first hook
      exactly, and hands back the replacement the first hook installed. */
  lemma HookUndo(m: Machine, slot: Word, replacement: Word)
    requires slot in m
    ensures var first := Hook(m, slot, replacement).value;
            Hook(first.machine, slot, first.original) == Done(Swapped(m, replacement))
  {
    var first := Hook(m, slot, replacement).value;
    var second := Hook(first.machine, slot, first.original).value;
    assert second.machine == m;
  }

  /** Hooking a slot with the word it already holds changes nothing. */
  lemma HookSameWord(m: Machine, slot: Word, replacement: Word)
    requires slot in m && m[slot].value == replacement
    ensures Hook(m, slot, replacement) == Done(Swapped(m, replacement))
  {
    assert Hook(m, slot, replacement).value.machine == m;
  }

  /** Re-installing on a slot already hooked captures the earlier replacement,
      not the value the slot held before any hook: whoever keeps only the
      latest original loses the true one. */
  lemma HookTwiceCapturesFirstReplacement(m: Machine, slot: Word, r1: Word, r2: Word)
    requires slot in m
    ensures var first := Hook(m, slot, r1).value;
            var second := Hook(first.machine, slot, r2).value;
            && first.original == m[slot].value
            && second.original == r1
            && second.machine == m[slot := Cell(r2, m[slot].prot)]
  {
  }

  predicate Writable(prot: Flags)
  {
    prot & WRITE_RIGHTS != 0
  }

  /** `hook` as it compiles when `NDEBUG` is defined: both `VirtualProtect`
      calls sit inside `assert` and vanish with it, so the slot is read and
      then stored to under whatever protection it already has. A store to a
      word without a write right faults. */
  function HookWithoutProtect(m: Machine, slot: Word, replacement: Word): (r: Outcome<Swapped>)
    ensures r.Done? <==> slot in m && Writable(m[slot].prot)
    ensures r.Crashed? ==> r == Crashed(AccessViolation(slot), m)
    ensures r.Done? ==> && r.value.original == m[slot].value
                        && r.value.machine == m[slot := m[slot].(value := replacement)]
  {
    if slot !in m then Crashed(AccessViolation(slot), m)
    else if !Writable(m[slot].prot) then Crashed(AccessViolation(slot), m)
    else Done(Swapped(m[slot := m[slot].(value := replacement)], m[slot].value))
  }

  /** On a writable slot the two builds agree. */
  lemma HookWithoutProtectAgreesWhenWritable(m: Machine, slot: Word, replacement: Word)
    requires slot in m && Writable(m[slot].prot)
    ensures HookWithoutProtect(m, slot, replacement) == Hook(m, slot, replacement)
  {
    assert m[slot := m[slot].(value := replacement)] == Hook(m, slot, replacement).value.machine;
  }

  /** On a read-only slot, such as an import-table entry, the build without
      assertions crashes where `Hook` succeeds. */
  lemma ReadOnlySlotBreaksReleaseHook(m: Machine, slot: Word, replacement: Word)
    requires slot in m && m[slot].prot == PAGE_READONLY
    ensures HookWithoutProtect(m, slot, replacement) == Crashed(AccessViolation(slot), m)
    ensures Hook(m, slot, replacement).Done?
  {
  }
}

=== FILE: session.dfy ===
/** Properties of the interception across calls: where the hook registries
    are written, how many surfaces may be created, and what the registries
    hold after the hooks are installed. */
module Session {
  import opened Abi
  import opened Memory
  import opened Vtable
  import opened Descriptors
  import opened Interception

  /** The only calls that write the hook registries. */
  predicate InstallsHooks(call: Call)
  {
    call.CreateDirectDraw? || (call.CreateSurface? && RequestsPrimary(call.desc))
  }

  function SurfaceCreations(calls: seq<Call>): nat
  {
    if calls == [] then 0
    else (if calls[0].CreateSurface? then 1 else 0) + SurfaceCreations(calls[1..])
  }

  /** A call other than `DirectDrawCreate` or a primary `CreateSurface`
      leaves both registries as they were. */
  lemma StepKeepsRegistries(ctx: Context, call: Call, world: Foreign)
    requires !InstallsHooks(call)
    ensures var r := Step(ctx, call, world);
            r.Done? ==> r.value.ctx.ddrawHooks == ctx.ddrawHooks && r.value.ctx.surfaceHooks == ctx.surfaceHooks
  {
  }

  /** Across a whole session without such calls the registries never
      change, so every recorded original stays the one first captured. */
  lemma {:induction false} RunKeepsRegistries(ctx: Context, calls: seq<Call>, world: Foreign)
    requires forall i :: 0 <= i < |calls| ==> !InstallsHooks(calls[i])
    ensures var r := Run(ctx, calls, world);
            r.Done? ==> r.value.ddrawHooks == ctx.ddrawHooks && r.value.surfaceHooks == ctx.surfaceHooks
    decreases |calls|
  {
    if calls != [] {
      StepKeepsRegistries(ctx, calls[0], world);
      var step := Step(ctx, calls[0], world);
      if step.Done? {
        RunKeepsRegistries(step.value.ctx, calls[1..], world);
      }
    }
  }

  /** Attaching again after a successful attach changes nothing: both
      import slots already hold the replacements, and writing the same word
      back under the restored protection leaves memory as it was. */
  lemma ReattachChangesNothing(ctx: Context)
    requires DllMain(ctx, DLL_PROCESS_ATTACH).Done?
    ensures var once := DllMain(ctx, DLL_PROCESS_ATTACH).value.ctx;
            DllMain(once, DLL_PROCESS_ATTACH) == Done(Reply(once, Accepted))
  {
    var once := DllMain(ctx, DLL_PROCESS_ATTACH).value.ctx;
    VirtualProtectRangeAgain(once.machine, HOST_REGION_START, HOST_REGION_SIZE, PAGE_EXECUTE_READWRITE);
    HookSameWord(once.machine, CREATE_WINDOW_IMPORT, ctx.shims.createWindowExA);
    HookSameWord(once.machine, DIRECTDRAW_CREATE_IMPORT, ctx.shims.directDrawCreate);
  }

  /** Each `CreateSurface` call that returns bumps the counter by one, other
      calls leave it alone, and once any surface was created in the
      session the counter is at most two. */
  lemma {:induction false} RunCountsSurfaceCreations(ctx: Context, calls: seq<Call>, world: Foreign)
    ensures var r := Run(ctx, calls, world);
            r.Done? ==> && r.value.createCount == ctx.createCount + SurfaceCreations(calls)
                        && (SurfaceCreations(calls) > 0 ==> r.value.createCount <= 2)
    decreases |calls|
  {
    if calls != [] {
      var step := Step(ctx, calls[0], world);
      if step.Done? {
        RunCountsSurfaceCreations(step.value.ctx, calls[1..], world);
      }
    }
  }

  /** From a freshly loaded DLL, a session that asks for a third surface
      does not finish: the counter assertion stops the process. */
  lemma AtMostTwoSurfaces(m: Machine, shims: Shims, calls: seq<Call>, world: Foreign)
    requires SurfaceCreations(calls) > 2
    ensures Run(Loaded(m, shims), calls, world).Crashed?
  {
    RunCountsSurfaceCreations(Loaded(m, shims), calls, world);
  }

  /** Before `DirectDrawCreate` has run, nothing is recorded: the two hooks
      that forward through `g_ddraw_hooks` call a null pointer and stop the
      process. */
  lemma ForwardingBeforeDirectDrawCrashes(m: Machine, shims: Shims, that: Word, hwnd: Word, level: Flags,
                                           desc: SurfaceDesc, outer: Word, world: Foreign)
    ensures SetCooperativeLevelHook(Loaded(m, shims), that, hwnd, level, world) == Crashed(AccessViolation(0), m)
    ensures CreateSurfaceHook(Loaded(m, shims), that, desc, outer, world) == Crashed(AccessViolation(0), m)
  {
  }

  /** `DirectDrawCreate_hook` on a clean layout: `g_ddraw` is the created
      object, each of the three slots is the object's first word plus the
      method's offset and now holds the replacement, and the registry holds,
      under the method's name, the word the slot held before. */
  lemma DirectDrawCreateRecordsTrueOriginals(ctx: Context, guid: Word, out: Word, outer: Word, world: Foreign)
    requires var created := world.directDrawCreate(guid, out, outer, ctx.machine);
             Clean(created.machine, created.handle, DirectDrawPlan(ctx.shims))
    ensures var created := world.directDrawCreate(guid, out, outer, ctx.machine);
            var r := DirectDrawCreateHook(ctx, guid, out, outer, world);
            var plan := DirectDrawPlan(ctx.shims);
            && r.Done?
            && r.value.ctx.ddraw == created.handle
            && forall i :: 0 <= i < |plan| ==>
                 var slot := SlotAddress(created.machine[created.handle].value, plan[i].offset);
                 && r.value.ctx.ddrawHooks[plan[i].name] == created.machine[slot].value
                 && r.value.ctx.machine[slot].value == plan[i].shim
  {
    var created := world.directDrawCreate(guid, out, outer, ctx.machine);
    InstallAllRecordsPriorWords(created.machine, created.handle, DirectDrawPlan(ctx.shims));
    InstallAllPatchesSlots(created.machine, created.handle, DirectDrawPlan(ctx.shims));
  }

  /** The primary branch after the forwarded call, on a clean layout:
      each original a slot held before the installs is recorded under its
      method's name, four in `g_surface_hooks` and `Flip` in
      `g_ddraw_hooks`. */
  lemma PrimaryCreatedRecords(ctx: Context, created: Created)
    requires Clean(created.machine, created.handle, SurfacePlan(ctx.shims))
    ensures var r := PrimaryCreated(ctx, created);
            var m := created.machine;
            var plan := SurfacePlan(ctx.shims);
            && r.Done?
            && r.value.ctx.primary == created.handle
            && (forall i :: 0 <= i < 4 ==>
                  r.value.ctx.surfaceHooks[plan[i].name] == m[SlotOf(m, created.handle, plan[i].offset)].value)
            && r.value.ctx.ddrawHooks["Flip"] == m[SlotOf(m, created.handle, plan[4].offset)].value
  {
    var m := created.machine;
    var plan := SurfacePlan(ctx.shims);
    InstallAllRecordsPriorWords(m, created.handle, plan);
    var o := InstallAll(m, created.handle, plan).value.originals;
    var c := PrimaryCreated(ctx, created).value.ctx;
    assert c.surfaceHooks == ctx.surfaceHooks["GetAttachedSurface" := o[0]]["Blt" := o[1]]["BltBatch" := o[2]]["BltFast" := o[3]];
    assert c.ddrawHooks == ctx.ddrawHooks["Flip" := o[4]];
    SurfaceRegistryLookups(ctx.surfaceHooks, o[0], o[1], o[2], o[3]);
  }

  // The four names written by the primary branch are distinct, so each
  // reads back its own value.
  lemma SurfaceRegistryLookups(x: map<string, Word>, a: Word, b: Word, c: Word, d: Word)
    ensures var y := x["GetAttachedSurface" := a]["Blt" := b]["BltBatch" := c]["BltFast" := d];
            y["GetAttachedSurface"] == a && y["Blt"] == b && y["BltBatch"] == c && y["BltFast"] == d
  {
  }

  /** The primary branch after the forwarded call, on a clean layout: each
      of the five slots now holds its replacement. */
  lemma PrimaryCreatedPatches(ctx: Context, created: Created)
    requires Clean(created.machine, created.handle, SurfacePlan(ctx.shims))
    ensures var r := PrimaryCreated(ctx, created);
            var m := created.machine;
            var plan := SurfacePlan(ctx.shims);
            && r.Done?
            && forall i :: 0 <= i < |plan| ==>
                 r.value.ctx.machine[SlotOf(m, created.handle, plan[i].offset)].value == plan[i].shim
  {
    InstallAllPatchesSlots(created.machine, created.handle, SurfacePlan(ctx.shims));
  }

  /** The primary branch of `CreateSurface_hook` on a clean layout: the new
      surface becomes `g_primary_surface`, its five slots hold the
      replacements, and each original the slot held is recorded under the
      method's name: four in `g_surface_hooks`, `Flip` in `g_ddraw_hooks`. */
  lemma PrimaryRecordsTrueOriginals(ctx: Context, that: Word, desc: SurfaceDesc, outer: Word, world: Foreign)
    requires RequestsPrimary(desc) && ctx.createCount < 2
    requires Original(ctx.ddrawHooks, "CreateSurface") != 0
    requires var created := CreateSurfaceForwarded(ctx, that, desc, outer, world);
             Clean(created.machine, created.handle, SurfacePlan(ctx.shims))
    ensures var created := CreateSurfaceForwarded(ctx, that, desc, outer, world);
            var r := CreateSurfaceHook(ctx, that, desc, outer, world);
            var m := created.machine;
            var plan := SurfacePlan(ctx.shims);
            && r.Done?
            && r.value.ctx.primary == created.handle
            && (forall i :: 0 <= i < 4 ==>
                  r.value.ctx.surfaceHooks[plan[i].name] == m[SlotOf(m, created.handle, plan[i].offset)].value)
            && r.value.ctx.ddrawHooks["Flip"] == m[SlotOf(m, created.handle, plan[4].offset)].value
            && forall i :: 0 <= i < |plan| ==>
                 r.value.ctx.machine[SlotOf(m, created.handle, plan[i].offset)].value == plan[i].shim
  {
    var created := CreateSurfaceForwarded(ctx, that, desc, outer, world);
    var counted := ctx.(createCount := ctx.createCount + 1);
    CreateSurfaceTakesBranch(ctx, that, desc, outer, world);
    PrimaryCreatedRecords(counted, created);
    PrimaryCreatedPatches(counted, created);
  }

  // Past the counter and the null check, the hook is the branch for the
  // request on the counted context.
  lemma CreateSurfaceTakesBranch(ctx: Context, that: Word, desc: SurfaceDesc, outer: Word, world: Foreign)
    requires ctx.createCount < 2 && Original(ctx.ddrawHooks, "CreateSurface") != 0
    ensures var created := CreateSurfaceForwarded(ctx, that, desc, outer, world);
            var counted := ctx.(createCount := ctx.createCount + 1);
            CreateSurfaceHook(ctx, that, desc, outer, world)
              == if RequestsPrimary(desc) then PrimaryCreated(counted, created) else SecondaryCreated(counted, created)
  {
  }

  /** The non-primary branch after the forwarded call, on a clean layout
      whose back-buffer global is not one of the slots: the surface becomes
      `g_secondary_surface`, the global points to it, and the slots hold the
      replacements. */
  lemma SecondaryCreatedPublishes(ctx: Context, created: Created)
    requires Clean(created.machine, created.handle, SurfacePlan(ctx.shims))
    requires BACK_BUFFER_GLOBAL in created.machine
    requires ClearOfSlots(created.machine, created.handle, SurfacePlan(ctx.shims), BACK_BUFFER_GLOBAL)
    ensures var r := SecondaryCreated(ctx, created);
            var m := created.machine;
            var plan := SurfacePlan(ctx.shims);
            && r.Done?
            && r.value.ctx.secondary == created.handle
            && r.value.ctx.machine[BACK_BUFFER_GLOBAL].value == created.handle
            && forall i :: 0 <= i < |plan| ==>
                 r.value.ctx.machine[SlotOf(m, created.handle, plan[i].offset)].value == plan[i].shim
  {
    var m := created.machine;
    var plan := SurfacePlan(ctx.shims);
    InstallAllPatchesSlots(m, created.handle, plan);
    var installed := InstallAll(m, created.handle, plan).value;
    forall i | 0 <= i < |plan|
      ensures SlotOf(m, created.handle, plan[i].offset) != BACK_BUFFER_GLOBAL
    {
    }
  }

  /** The non-primary branch of `CreateSurface_hook` on a clean layout: the
      new surface becomes `g_secondary_surface`, its slots hold the
      replacements, the host's back-buffer global now points to it,
      nothing is recorded, and from then on `GetAttachedSurface` hands out
      exactly that surface. */
  lemma SecondaryPublishesBackBuffer(ctx: Context, that: Word, desc: SurfaceDesc, outer: Word, world: Foreign)
    requires !RequestsPrimary(desc) && ctx.createCount < 2
    requires Original(ctx.ddrawHooks, "CreateSurface") != 0
    requires var created := CreateSurfaceForwarded(ctx, that, desc, outer, world);
             && Clean(created.machine, created.handle, SurfacePlan(ctx.shims))
             && BACK_BUFFER_GLOBAL in created.machine
             && ClearOfSlots(created.machine, created.handle, SurfacePlan(ctx.shims), BACK_BUFFER_GLOBAL)
    ensures var created := CreateSurfaceForwarded(ctx, that, desc, outer, world);
            var r := CreateSurfaceHook(ctx, that, desc, outer, world);
            var m := created.machine;
            var plan := SurfacePlan(ctx.shims);
            && r.Done?
            && r.value.ctx.secondary == created.handle
            && r.value.ctx.machine[BACK_BUFFER_GLOBAL].value == created.handle
            && (forall i :: 0 <= i < |plan| ==>
                  r.value.ctx.machine[SlotOf(m, created.handle, plan[i].offset)].value == plan[i].shim)
            && r.value.ctx.ddrawHooks == ctx.ddrawHooks && r.value.ctx.surfaceHooks == ctx.surfaceHooks
            && forall caps :: GetAttachedSurfaceHook(r.value.ctx, that, caps).value.answer.surface == created.handle
  {
    var created := CreateSurfaceForwarded(ctx, that, desc, outer, world);
    var counted := ctx.(createCount := ctx.createCount + 1);
    SecondaryCreatedPublishes(counted, created);
  }

  /** The machine after the primary branch installed its hooks, with a
      second surface object at `s2` sharing the primary's vtable, as two
      objects of one class do. */
  function SecondObjectSharingTable(primary: Created, installed: Machine, s2: Word, p2: Flags): Machine
    requires primary.handle in primary.machine
  {
    installed[s2 := Cell(primary.machine[primary.handle].value, p2)]
  }

  // On the shared table the second object's layout is clean: its slots
  // are the primary's slots, each holding its replacement.
  lemma SharedTableLayout(ctx: Context, primary: Created, s2: Word, p2: Flags)
    requires Clean(primary.machine, primary.handle, SurfacePlan(ctx.shims))
    requires ClearOfSlots(primary.machine, primary.handle, SurfacePlan(ctx.shims), s2)
    ensures var plan := SurfacePlan(ctx.shims);
            var first := PrimaryCreated(ctx, primary);
            && first.Done?
            && var m2 := SecondObjectSharingTable(primary, first.value.ctx.machine, s2, p2);
               && Clean(m2, s2, plan)
               && forall i :: 0 <= i < |plan| ==>
                    && SlotOf(m2, s2, plan[i].offset) == SlotOf(primary.machine, primary.handle, plan[i].offset)
                    && m2[SlotOf(m2, s2, plan[i].offset)].value == plan[i].shim
  {
    var plan := SurfacePlan(ctx.shims);
    PrimaryCreatedPatches(ctx, primary);
    var m1 := PrimaryCreated(ctx, primary).value.ctx.machine;
    var m2 := SecondObjectSharingTable(primary, m1, s2, p2);
    assert m1.Keys == primary.machine.Keys;
    assert m2[s2].value == primary.machine[primary.handle].value;
    forall i | 0 <= i < |plan|
      ensures SlotOf(m2, s2, plan[i].offset) == SlotOf(primary.machine, primary.handle, plan[i].offset)
      ensures SlotOf(m2, s2, plan[i].offset) in m2
      ensures Apart(SlotOf(m2, s2, plan[i].offset), s2)
    {
    }
    assert ClearOfSlots(m2, s2, plan, s2);
  }

  /** Installing on a second object that shares the primary's vtable reads
      back the replacements the primary's installs wrote, not the
      originals. */
  lemma SecondRoundReadsReplacements(ctx: Context, primary: Created, s2: Word, p2: Flags)
    requires Clean(primary.machine, primary.handle, SurfacePlan(ctx.shims))
    requires ClearOfSlots(primary.machine, primary.handle, SurfacePlan(ctx.shims), s2)
    ensures var plan := SurfacePlan(ctx.shims);
            var first := PrimaryCreated(ctx, primary);
            && first.Done?
            && var m2 := SecondObjectSharingTable(primary, first.value.ctx.machine, s2, p2);
               && InstallAll(m2, s2, plan).Done?
               && forall i :: 0 <= i < |plan| ==> InstallAll(m2, s2, plan).value.originals[i] == plan[i].shim
  {
    var plan := SurfacePlan(ctx.shims);
    SharedTableLayout(ctx, primary, s2, p2);
    var m2 := SecondObjectSharingTable(primary, PrimaryCreated(ctx, primary).value.ctx.machine, s2, p2);
    InstallAllRecordsPriorWords(m2, s2, plan);
  }

  /** Primary then back buffer on one shared vtable. Although the second
      round of installs reads back replacements, the non-primary branch
      discards what it reads: after both creations the registries still
      hold the originals captured first. */
  lemma SharedVtableKeepsTrueOriginals(ctx: Context, primary: Created, hr2: Flags, s2: Word, p2: Flags)
    requires Clean(primary.machine, primary.handle, SurfacePlan(ctx.shims))
    requires ClearOfSlots(primary.machine, primary.handle, SurfacePlan(ctx.shims), s2)
    requires BACK_BUFFER_GLOBAL in primary.machine
    ensures var plan := SurfacePlan(ctx.shims);
            var m := primary.machine;
            var first := PrimaryCreated(ctx, primary);
            && first.Done?
            && var m2 := SecondObjectSharingTable(primary, first.value.ctx.machine, s2, p2);
               var second := SecondaryCreated(first.value.ctx, Created(hr2, s2, m2));
               && second.Done?
               && (forall i :: 0 <= i < 4 ==>
                     second.value.ctx.surfaceHooks[plan[i].name] == m[SlotOf(m, primary.handle, plan[i].offset)].value)
               && second.value.ctx.ddrawHooks["Flip"] == m[SlotOf(m, primary.handle, plan[4].offset)].value
  {
    PrimaryCreatedRecords(ctx, primary);
    SharedTableLayout(ctx, primary, s2, p2);
    var first := PrimaryCreated(ctx, primary);
    var m2 := SecondObjectSharingTable(primary, first.value.ctx.machine, s2, p2);
    InstallAllRecordsPriorWords(m2, s2, SurfacePlan(ctx.shims));
    assert BACK_BUFFER_GLOBAL in InstallAll(m2, s2, SurfacePlan(ctx.shims)).value.machine;
  }

  /** A second primary creation on the shared vtable reads back the
      replacements the first one wrote, and records them under `Blt` and
      `Flip` in place of the originals. */
  lemma SecondPrimaryRecordsReplacements(ctx: Context, primary: Created, hr2: Flags, s2: Word, p2: Flags)
    requires Clean(primary.machine, primary.handle, SurfacePlan(ctx.shims))
    requires ClearOfSlots(primary.machine, primary.handle, SurfacePlan(ctx.shims), s2)
    ensures var first := PrimaryCreated(ctx, primary);
            && first.Done?
            && var m2 := SecondObjectSharingTable(primary, first.value.ctx.machine, s2, p2);
               var second := PrimaryCreated(first.value.ctx, Created(hr2, s2, m2));
               && second.Done?
               && second.value.ctx.surfaceHooks["Blt"] == ctx.shims.blt
               && second.value.ctx.ddrawHooks["Flip"] == ctx.shims.flip
  {
    SecondRoundReadsReplacements(ctx, primary, s2, p2);
    var first := PrimaryCreated(ctx, primary).value.ctx;
    var m2 := SecondObjectSharingTable(primary, first.machine, s2, p2);
    var o := InstallAll(m2, s2, SurfacePlan(ctx.shims)).value.originals;
    SurfaceRegistryLookups(first.surfaceHooks, o[0], o[1], o[2], o[3]);
  }

  /** `SetCooperativeLevel_hook` ignores the requested level: whatever the
      caller asks for, the original sees `DDSCL_NORMAL` and the caller gets
      the same answer. */
  lemma CooperativeLevelIgnored(ctx: Context, that: Word, hwnd: Word, l1: Flags, l2: Flags, world: Foreign)
    ensures SetCooperativeLevelHook(ctx, that, hwnd, l1, world) == SetCooperativeLevelHook(ctx, that, hwnd, l2, world)
  {
  }
}

=== FILE: vtable.dfy ===
/** Locating and patching vtable slots. A COM instance's first word points to
    its table of method pointers; method k of the interface sits at a fixed
    byte offset in that table. Installing a hook on an instance resolves the
    slot from the instance's current first word and hands the slot to `Hook`. */
module Vtable {
  import opened Abi
  import opened Memory

  /** `table + offset` in `std::uintptr_t` arithmetic, which wraps. */
  function SlotAddress(table: Word, offset: Word): (r: Word)
    ensures table + offset < WORD_MODULUS ==> r == table + offset
    ensures table + offset >= WORD_MODULUS ==> r == table + offset - WORD_MODULUS
  {
    (table + offset) % WORD_MODULUS
  }

  /** Within one table, distinct offsets name distinct slots, wrap-around
      included. */
  lemma SlotAddressInjective(table: Word, o1: Word, o2: Word)
    ensures SlotAddress(table, o1) == SlotAddress(table, o2) <==> o1 == o2
  {
  }

  /** The slot of the method at `offset` in the vtable of `instance`, read
      through the instance's first word. */
  function SlotOf(m: Machine, instance: Word, offset: Word): (r: Word)
    requires instance in m
    ensures (r - m[instance].value) % WORD_MODULUS == offset
  {
    SlotAddress(m[instance].value, offset)
  }

  /** One hook to install: the registry name of the method, its vtable
      offset, and the address of the replacement. */
  datatype Install = Install(name: string, offset: Word, shim: Word)

  datatype Installed = Installed(machine: Machine, originals: seq<Word>)

  /** Installs `plan` in order on `instance`, re-reading the instance's table
      pointer before each slot as main.cpp does, and returns the word each
      slot held just before its own install. */
  function InstallAll(m: Machine, instance: Word, plan: seq<Install>): (r: Outcome<Installed>)
    ensures plan != [] && instance !in m ==> r == Crashed(AccessViolation(instance), m)
    ensures plan != [] && instance in m && SlotOf(m, instance, plan[0].offset) !in m ==>
              r == Crashed(AssertionFailed, m)
    ensures instance in m && r.Crashed? ==> r.fault == AssertionFailed
    ensures r.Done? ==> |r.value.originals| == |plan| && r.value.machine.Keys == m.Keys
    decreases |plan|
  {
    if plan == [] then Done(Installed(m, []))
    else if instance !in m then Crashed(AccessViolation(instance), m)
    else
      match Hook(m, SlotOf(m, instance, plan[0].offset), plan[0].shim)
      case Crashed(f, at) => Crashed(f, at)
      case Done(first) =>
        match InstallAll(first.machine, instance, plan[1..])
        case Crashed(f, at) => Crashed(f, at)
        case Done(rest) => Done(Installed(rest.machine, [first.original] + rest.originals))
  }

  predicate DistinctOffsets(plan: seq<Install>)
  {
    forall i, j :: 0 <= i < j < |plan| ==> plan[i].offset != plan[j].offset
  }

  /** The four-byte words at `a` and `b` share no byte, wrap-around
      included. */
  predicate Apart(a: Word, b: Word)
  {
    POINTER_SIZE <= (a - b) % WORD_MODULUS <= WORD_MODULUS - POINTER_SIZE
  }

  /** No slot of the plan shares a byte with the word at `a`. */
  predicate ClearOfSlots(m: Machine, instance: Word, plan: seq<Install>, a: Word)
    requires instance in m
  {
    forall i :: 0 <= i < |plan| ==> Apart(SlotOf(m, instance, plan[i].offset), a)
  }

  /** The layout the hooks assume: the instance is mapped, every slot of the
      plan is mapped, no slot shares a byte with the instance's own first
      word, and the offsets are distinct multiples of the pointer size, so
      no two slots share a byte either. */
  predicate Clean(m: Machine, instance: Word, plan: seq<Install>)
  {
    && instance in m
    && DistinctOffsets(plan)
    && (forall i :: 0 <= i < |plan| ==> plan[i].offset % POINTER_SIZE == 0)
    && (forall i :: 0 <= i < |plan| ==> SlotOf(m, instance, plan[i].offset) in m)
    && ClearOfSlots(m, instance, plan, instance)
  }

  predicate IsSlot(m: Machine, instance: Word, plan: seq<Install>, a: Word)
    requires instance in m
  {
    exists i :: 0 <= i < |plan| && SlotOf(m, instance, plan[i].offset) == a
  }

  // Hooking the first slot of a clean plan leaves the instance's table
  // pointer alone, so the rest of the plan resolves to the same slots, none
  // of which is the first, and is still clean.
  lemma FirstInstallKeepsRestClean(m: Machine, instance: Word, plan: seq<Install>)
    requires Clean(m, instance, plan) && plan != []
    ensures var s0 := SlotOf(m, instance, plan[0].offset);
            var r := Hook(m, s0, plan[0].shim);
            && r.Done?
            && var m1 := r.value.machine;
               && instance in m1
               && Clean(m1, instance, plan[1..])
               && forall i :: 0 <= i < |plan| - 1 ==>
                    && SlotOf(m1, instance, plan[1..][i].offset) == SlotOf(m, instance, plan[i + 1].offset)
                    && SlotOf(m, instance, plan[i + 1].offset) != s0
  {
    var s0 := SlotOf(m, instance, plan[0].offset);
    var m1 := Hook(m, s0, plan[0].shim).value.machine;
    var rest := plan[1..];
    assert m1[instance] == m[instance];
    forall i | 0 <= i < |rest|
      ensures SlotOf(m1, instance, rest[i].offset) == SlotOf(m, instance, plan[i + 1].offset)
      ensures SlotOf(m, instance, plan[i + 1].offset) != s0
    {
      assert rest[i] == plan[i + 1];
      SlotAddressInjective(m[instance].value, plan[0].offset, plan[i + 1].offset);
    }
  }

  /** On a clean layout every install succeeds, and the recorded original
      of slot i is the word it held before the whole sequence, even though
      earlier installs in the sequence have already changed memory. */
  lemma {:induction false} InstallAllRecordsPriorWords(m: Machine, instance: Word, plan: seq<Install>)
    requires Clean(m, instance, plan)
    ensures var r := InstallAll(m, instance, plan);
            && r.Done?
            && forall i :: 0 <= i < |plan| ==>
                 r.value.originals[i] == m[SlotOf(m, instance, plan[i].offset)].value
    decreases |plan|
  {
    if plan != [] {
      var s0 := SlotOf(m, instance, plan[0].offset);
      var first := Hook(m, s0, plan[0].shim).value;
      var m1 := first.machine;
      FirstInstallKeepsRestClean(m, instance, plan);
      InstallAllRecordsPriorWords(m1, instance, plan[1..]);
      var tail := InstallAll(m1, instance, plan[1..]).value;
      assert InstallAll(m, instance, plan) == Done(Installed(tail.machine, [first.original] + tail.originals));
    }
  }

  /** On a clean layout, after the installs slot i holds shim i under the
      protection it had before. */
  lemma {:induction false} InstallAllPatchesSlots(m: Machine, instance: Word, plan: seq<Install>)
    requires Clean(m, instance, plan)
    ensures var r := InstallAll(m, instance, plan);
            && r.Done?
            && forall i :: 0 <= i < |plan| ==>
                 r.value.machine[SlotOf(m, instance, plan[i].offset)]
                   == Cell(plan[i].shim, m[SlotOf(m, instance, plan[i].offset)].prot)
    decreases |plan|
  {
    if plan != [] {
      var s0 := SlotOf(m, instance, plan[0].offset);
      var first := Hook(m, s0, plan[0].shim).value;
      var m1 := first.machine;
      FirstInstallKeepsRestClean(m, instance, plan);
      InstallAllPatchesSlots(m1, instance, plan[1..]);
      InstallAllLeavesOthers(m1, instance, plan[1..]);
      var tail := InstallAll(m1, instance, plan[1..]).value;
      assert InstallAll(m, instance, plan) == Done(Installed(tail.machine, [first.original] + tail.originals));
      assert !IsSlot(m1, instance, plan[1..], s0);
    }
  }

  /** On a clean layout the installs touch no word other than the plan's
      slots. */
  lemma {:induction false} InstallAllLeavesOthers(m: Machine, instance: Word, plan: seq<Install>)
    requires Clean(m, instance, plan)
    ensures var r := InstallAll(m, instance, plan);
            && r.Done?
            && forall a :: a in m && !IsSlot(m, instance, plan, a) ==> r.value.machine[a] == m[a]
    decreases |plan|
  {
    if plan != [] {
      var s0 := SlotOf(m, instance, plan[0].offset);
      var first := Hook(m, s0, plan[0].shim).value;
      var m1 := first.machine;
      FirstInstallKeepsRestClean(m, instance, plan);
      InstallAllLeavesOthers(m1, instance, plan[1..]);
      var tail := InstallAll(m1, instance, plan[1..]).value;
      assert InstallAll(m, instance, plan) == Done(Installed(tail.machine, [first.original] + tail.originals));
      forall a | a in m && !IsSlot(m, instance, plan, a)
        ensures tail.machine[a] == m[a]
      {
        assert a != s0;
      }
    }
  }
}
